=== FILE: README.md ===
# Zogakzip back end: group, post and comment handlers in Dafny

This project models the request handlers of the Zogakzip memory-sharing back
end. Users create groups, post memories into a group and comment on posts. A
group earns badges when it meets activity thresholds. The model covers:

- the three Mongoose schemas (`Group`, `Post`, `Comment`) and their defaults;
- every handler of the group, post and comment controllers;
- the badge evaluation `checkBadges`.

The document store is an immutable value, `Storage.Store`:

- one id-keyed map per collection;
- an id allocator `nextId`, so creation order is ascending id order.

Every handler is a pure function from the store and the request to a
`Reply`, which holds three things:

- the HTTP status;
- the payload of the JSON body, or `None` when the body is only a message;
- the store afterwards.

`Storage.Valid` is the store invariant:

- every document was allocated;
- every document satisfies its schema;
- every parent id was allocated;
- a group holds each badge at most once.

Every handler preserves `Valid`.

Request values follow JavaScript's rules (module `Js`):

- an absent field is `None`;
- a string is truthy when present and non-empty;
- `a || b` and `a !== undefined ? a : b` are explicit fallbacks.

Two environment inputs become parameters:

- the wall clock is `now`, in milliseconds;
- MongoDB's `$regex` test is `matches(pattern, text)`.

MongoDB does not specify the order of documents whose sort keys are equal.
The model fixes one such order: equal keys keep creation order. The sort
is stable on the ascending lists the queries sort
(`Paging.LemmaSortTiesAscending`), and a key every document lacks leaves
the list as it is (`Paging.LemmaSortConstantKey`).

Modules follow the program:

| module | file | models |
|---|---|---|
| Schema | schema.dfy | the three schemas and `new Model({...})` |
| Storage | storage.dfy | the store, its invariant, statuses and replies |
| Paging | paging.dfy | `countDocuments` / `find().sort().skip().limit()` and `Math.ceil` page counts |
| Badges | badges.dfy | `checkBadges` |
| Groups | groups.dfy | controllers/groupController.js |
| Posts | posts.dfy | controllers/postController.js |
| Comments | comments.dfy | controllers/commentController.js |

Behaviour of the code that the model keeps as written:

- **`posts_count` is never persisted.** `createPost` increments `posts_count`, but the schema field is `postCount`. The save therefore stores nothing, and `postCount` stays 0 for ever (`Posts.LemmaCreatePostKeepsPostCount`).
- **Sorts on missing fields impose no order.** `mostBadge` sorts on `badgeCount` and `mostCommented` sorts on `comment_count`, and no document stores either field. Every key is missing, so MongoDB's sort leaves the order of those pages unspecified. Under the model's tie rule they list documents in creation order (`Groups.LemmaMostBadgeListsInCreationOrder`, `Posts.LemmaMostCommentedListsInCreationOrder`).
- **`commentCount` is always undefined.** Post replies read `comment_count`, but the schema field is `comments_count` (`Posts.LemmaCommentCountNeverSent`).
- **Replies show the badges from before evaluation.** The detail, list and update replies are built from the document as loaded before `checkBadges` ran. So a badge earned by the request itself is stored but not shown (`Groups.LemmaDetailBadgesLag`).
- **Some replies include the password.** `createGroup`, `updateGroup` and `createPost` send back the whole saved document. So the stored password is sent back to the client, and the model keeps that.
- **Post password fields disagree.** Post update and delete compare the body field `postPassword` with the stored password. `verifyPostPassword` compares the field `password`. Both check the same stored value (`Posts.LemmaVerifyAgreesWithGates`).
- **Deletes do not cascade.** Deleting a group or a post leaves its posts or comments stored.
- **Schema failures map to different codes.** A schema validation failure (a missing required string) makes `createPost` answer 500 and `createComment` answer 400, each from its own catch block.
- **Paging edge cases:**
  - A skip of `(page - 1) * pageSize` below zero is refused by the store, and the handler answers 400.
  - `limit(0)` means no limit.
  - A negative limit `n` returns at most `-n` documents.
  - A page size of 0 makes `Math.ceil` infinite or NaN, which JSON renders as `null` (`None`).

## Model

| member | source | states |
|---|---|---|
| Schema.NewGroup | models/groupModel.js:3-13 | a new group satisfies the schema exactly when its name is non-empty; `isPublic` defaults to true, counters to 0, badges to empty, `createdAt` to now |
| Schema.NewPost | models/postModel.js:3-17 | a new post satisfies the schema exactly when nickname, title, content and password are non-empty; `is_public` defaults to true, `memory_time` to now, likes and comment counter to 0 |
| Schema.NewComment | models/commentModel.js:3-9 | a new comment satisfies the schema exactly when nickname, content and password are non-empty; it belongs to the given post and is stamped now |
| Paging.CeilDiv | controllers/groupController.js:140 | `Math.ceil(total / d)` is the least integer at or above the quotient, for either sign of the divisor |
| Paging.TotalPages | controllers/groupController.js:140 | the page count is null exactly for a zero page size; otherwise the pages just cover the total |
| Paging.Limit | controllers/groupController.js:119 | `limit(parseInt(pageSize))`: zero means unlimited, otherwise the absolute value |
| Paging.Slice | controllers/groupController.js:118-119 | `skip(k).limit(n)` returns the consecutive run starting at position k, of length min(n, remaining) |
| Paging.Filter | controllers/groupController.js:115-116 | a document is kept exactly when it was a candidate and passes the filter; without repeats when the candidates have none, and ascending when the candidates are ascending, as every candidate list is |
| Paging.SortDesc | controllers/groupController.js:116-117 | the result is a permutation of the input, sorted by key descending, same length, distinct when the input is |
| Paging.LemmaSortConstantKey | controllers/groupController.js:105-117 | sorting on a key that every document lacks keeps creation order |
| Paging.LemmaInsertTiesAscending | controllers/groupController.js:116-117 | inserting a document older than all the others puts it before every document with an equal key, keeping ties in creation order |
| Paging.LemmaSortTiesAscending | controllers/groupController.js:116-117 | sorting a list in creation order leaves every run of equal keys in creation order |
| Paging.Ranked | controllers/groupController.js:115-117 | the sorted matches are exactly the candidates that pass the filter, in key order, as many as the count, distinct when the candidates are |
| Paging.Select | controllers/groupController.js:114-119 | a negative skip is refused; otherwise the count is of all matches, and item i of the page is match number skip + i in sort order, for exactly as many items as `skip(skip).limit(limit)` leaves |
| Paging.LemmaPageNonEmptyIff | controllers/groupController.js:114-140 | for a positive page size, page p ≥ 1 holds documents exactly when p is at most the reported page count |
| Paging.LemmaHomePageInRange | controllers/groupController.js:114-140 | for a positive page size, the page of any matching document is at least 1 and at most the reported page count |
| Paging.LemmaOnlyOnHomePage | controllers/groupController.js:114-119 | for a positive page size, a matching document appears on a page exactly when that page is its own, so on no other page |
| Paging.LemmaNothingBelowPageOne | controllers/groupController.js:114-119 | a page number below one lists nothing (the skip is negative), and no matching document belongs on such a page |
| Paging.LemmaOnPageIffQuotient | controllers/groupController.js:114-119 | from page one on, the match of rank `j` is on the page exactly when the page number is `j` divided by the page size, plus one |
| Paging.LemmaMatchOnOnePage | controllers/groupController.js:114-140 | for a positive page size, every matching document is listed on exactly one page, and that page is within the page count |
| Paging.LemmaTwelveAtFive | controllers/groupController.js:114-140 | with twelve matches and five per page there are three pages; page 2 holds five items and page 3 holds two |
| Badges.AddIfEarned | controllers/groupController.js:21-24 | a badge is appended exactly when earned and not yet held; the old list is a prefix and stays duplicate-free |
| Badges.AddAll | controllers/groupController.js:21-54 | after the five checks the list extends the old one by exactly the earned badges, without duplicates |
| Badges.Evaluate | controllers/groupController.js:10-54 | the evaluated badge list holds the old badges plus exactly those whose thresholds are met |
| Badges.CheckBadges | controllers/groupController.js:5-59 | only the evaluated group's badges change, old badges are kept, new membership is old ∪ earned, and the store is written exactly when something was missing |
| Badges.LemmaBadgeNamesDistinct | controllers/groupController.js:21-52 | the five badge names are pairwise different |
| Badges.LemmaBadgeSetMembers | controllers/groupController.js:21-54 | each badge name is selected exactly when its own check passed |
| Badges.LemmaLongevityInMillis | controllers/groupController.js:10-12 | 365 whole days have passed exactly when 365 days of milliseconds have |
| Badges.LemmaBadgeThresholds | controllers/groupController.js:14-54 | per badge: held afterwards iff held before or its raw threshold is met (7 posts in 7 days, 20 posts, 365 days, 10000 group likes, a post with 10000 likes) |
| Badges.LemmaEarnedReadsLikesAndAge | controllers/groupController.js:21-54 | of the group document the thresholds read only `likeCount` and `createdAt`, never the badges already held or the fields an update changes |
| Badges.LemmaCheckBadgesIdempotent | controllers/groupController.js:5-59 | a second evaluation at the same time adds nothing and writes nothing |
| Badges.LemmaCheckBadgesLocal | controllers/groupController.js:5-59 | evaluating one group reads only that group and the posts |
| Badges.CheckEach | controllers/groupController.js:121-123 | evaluating a page of groups changes only the badges of the listed groups; other groups, posts, comments and the id counter stay as they were, and the store stays valid |
| Badges.LemmaCheckEachPerGroup | controllers/groupController.js:121-123 | after evaluating a page in turn, each listed group is as one evaluation on the original store leaves it, duplicates included |
| Groups.CreateGroup | controllers/groupController.js:62-83 | 201 exactly when every text field is truthy and `isPublic` is a boolean; the stored group has the given fields and schema defaults under a fresh id, and the reply carries it whole; otherwise 400 and no write |
| Groups.RankedGroups | controllers/groupController.js:90-119 | the sorted matches are exactly the allocated groups that pass the name and public filters, in sort-key order, without repeats |
| Groups.GetGroups | controllers/groupController.js:86-147 | 400 exactly for a negative skip; the count is the number of matching groups; item i is the group at rank skip + i of the sorted matches, as loaded; listed groups get their badges evaluated, nothing else changes and no id is allocated |
| Groups.LemmaGroupCount | controllers/groupController.js:115 | the count of the filtered natural order equals the number of groups the filter selects |
| Groups.LemmaPageItems | controllers/groupController.js:114-136 | the ids the query returns, summarised, are listed groups in sort order without repeats, at most a page, standing at the page's ranks of the sorted matches |
| Groups.LemmaPageSummaries | controllers/groupController.js:116-136 | summarising listed ids that are in sort order without repeats gives items that match the query, keep that order and repeat no group |
| Groups.LemmaPageRanks | controllers/groupController.js:114-119 | the ids the query returns stand at the page's ranks of the sorted matching groups, as many as skip and limit leave |
| Groups.LemmaPageEvaluation | controllers/groupController.js:121-123 | after the page's evaluations each listed group is as `checkBadges` leaves it and every other group is unchanged |
| Groups.LemmaMostBadgeListsInCreationOrder | controllers/groupController.js:105-107 | `mostBadge` pages list groups in creation order |
| Groups.LemmaMergeGroupFields | controllers/groupController.js:165-168 | a truthy name, image or introduction, or a defined `isPublic`, replaces the field; otherwise it is kept; likes, post counter, password and creation time never change |
| Groups.LemmaMergeGroupStable | controllers/groupController.js:165-168 | merging the same body twice gives the same group |
| Groups.ApplyUpdate | controllers/groupController.js:165-172 | saving the merged group and then running `checkBadges` keeps the field promise; the badges become the old ones plus those the group has earned; nothing else changes |
| Groups.UpdateGroup | controllers/groupController.js:150-178 | 404 for a missing group, 403 on a password mismatch, each with no write; otherwise the field promise holds, the new badges are the old ones plus those the group has earned (so `checkBadges` ran), other groups are unchanged, no id is allocated, and the reply is the saved group, with its id and its pre-evaluation badges |
| Groups.LemmaUpdateGroupIdempotent | controllers/groupController.js:150-178 | sending the same update twice leaves the store as sending it once |
| Groups.LemmaApplyUpdateIdempotent | controllers/groupController.js:165-175 | saving the same accepted update a second time, badge check included, leaves the store as the first save left it |
| Groups.DeleteGroup | controllers/groupController.js:181-202 | same 404/403 gate; on success exactly that group is removed, posts and comments stay, and no id is allocated |
| Groups.GetGroupDetail | controllers/groupController.js:205-236 | OK exactly for an existing group that is public or whose password matches (403 otherwise, 404 when missing); the reply is the group as loaded and the store is as `checkBadges` leaves it |
| Groups.LemmaDetailBadgesLag | controllers/groupController.js:220-231 | the reply shows the stored badges exactly when the evaluation wrote nothing |
| Groups.LemmaCreateThenDetail | controllers/groupController.js:205-236 | a created group reads back with the supplied fields, zero counters and no badges |
| Groups.VerifyGroupPassword | controllers/groupController.js:239-262 | 404 when missing; OK exactly for a public group or a matching password; 401 exactly for a private group with a wrong password; no write |
| Groups.LemmaVerifyAgreesWithDetail | controllers/groupController.js:250-258 | the password check passes exactly for the requests the detail page serves |
| Groups.LikeGroup | controllers/groupController.js:265-282 | 404 when missing; otherwise the like count rises by one, is sent back, and nothing else changes |
| Groups.LemmaLikesAccumulate | controllers/groupController.js:275-276 | n likes in a row raise the count by exactly n and change nothing else: other groups, posts, comments and the id counter stay as they were |
| Groups.CheckGroupPublic | controllers/groupController.js:285-302 | the id and public flag of an existing group, 404 otherwise, no write |
| Groups.LemmaPublicFlagDecidesCheck | controllers/groupController.js:250-258 | a group reported public passes the password check with any password; a private one only with its own |
| Groups.LemmaDeleteThenDetail | controllers/groupController.js:196 | after a delete, detail, public check, password check, update, a second delete and like all answer 404 for that group, while its posts remain |
| Posts.LemmaCommentCountNeverSent | controllers/postController.js:96 | no post projection carries the stored comment counter |
| Posts.CreatePost | controllers/postController.js:5-41 | 404 for a missing group; 500 and no write when a required field is missing; otherwise the post is stored under a fresh id with the given fields and defaults, groups untouched |
| Posts.LemmaCreatePostKeepsPostCount | controllers/postController.js:32-34 | creating a post never changes the group's `postCount` |
| Posts.LemmaCreateThenGetPost | controllers/postController.js:17-30 | a created post reads back with its group, the supplied nickname, title, content, image, tags, location and moment (tags default to empty, moment to now), public unless `false` was sent, no likes and created now |
| Posts.LemmaPostCount | controllers/postController.js:74 | the count equals the number of posts the filter selects |
| Posts.RankedPosts | controllers/postController.js:51-79 | the sorted matches are exactly the allocated posts of the group that pass the public and keyword filters, in sort-key order, without repeats |
| Posts.LemmaPostPageItems | controllers/postController.js:74-98 | the ids the query returns, summarised, are listed posts of the group in sort order without repeats, at most a page, standing at the page's ranks of the sorted matches |
| Posts.LemmaPostPageSummaries | controllers/postController.js:76-98 | summarising listed ids that are in sort order without repeats gives items of the group that match the query, keep that order and repeat no post |
| Posts.LemmaPostPageRanks | controllers/postController.js:76-79 | the ids the query returns stand at the page's ranks of the sorted matching posts, as many as skip and limit leave |
| Posts.GetPostsByGroupId | controllers/postController.js:45-104 | 400 exactly for a negative skip, otherwise OK even for a missing group; the count is the number of matching posts; item i is the post at rank skip + i of the sorted matches; no write |
| Posts.LemmaMostCommentedListsInCreationOrder | controllers/postController.js:65-66 | `mostCommented` pages list posts in creation order |
| Posts.LemmaMergePostFields | controllers/postController.js:125-132 | each truthy field (any array for tags, a defined flag) replaces the old value, otherwise it is kept; group, likes, password, counter and creation time never change |
| Posts.UpdatePostById | controllers/postController.js:108-156 | 404, then 403 unless `postPassword` matches, with no write; otherwise the field promise holds, other posts are unchanged, no id is allocated, and the reply is the updated post |
| Posts.LemmaUpdatePostIdempotent | controllers/postController.js:124-134 | sending the same update twice leaves the store as sending it once |
| Posts.DeletePostById | controllers/postController.js:160-185 | same 404/403 gate; on success exactly that post is removed, groups and comments untouched, no id allocated |
| Posts.LemmaDeleteThenGet | controllers/postController.js:177 | a deleted post answers 404 while its comments remain |
| Posts.GetPostById | controllers/postController.js:189-219 | OK exactly for a stored post; the reply carries its id, group, nickname, title, content, image as `imageUrl`, tags, location, `memory_time` as `moment`, public flag, likes as `likeCount`, an undefined `commentCount` and creation time; 404 otherwise; no write |
| Posts.VerifyPostPassword | controllers/postController.js:223-245 | 404 when missing; OK exactly on a matching `password`, 401 otherwise, with no public bypass; no write |
| Posts.LemmaVerifyAgreesWithGates | controllers/postController.js:223-245 | the password check passes exactly when update and delete would pass with the same string sent as `postPassword` |
| Posts.LikePostById | controllers/postController.js:249-269 | 404 when missing; otherwise likes rise by one and nothing else changes |
| Posts.LemmaLikeThenGet | controllers/postController.js:260-261 | a like shows in the next read of the post |
| Posts.GetPostPublicStatus | controllers/postController.js:273-292 | the id and public flag of an existing post, 404 otherwise, no write |
| Posts.LemmaPublicStatusAgreesWithDetail | controllers/postController.js:284-287 | the public-status reply agrees with the detail reply |
| Comments.CreateComment | controllers/commentController.js:5-37 | 404 for a missing post; 400 and no write when a field is missing; otherwise 200, the comment is stored under a fresh id and the reply leaves out the password; posts untouched |
| Comments.LemmaCommentCount | controllers/commentController.js:52 | the count equals the number of the post's comments |
| Comments.RankedComments | controllers/commentController.js:52-55 | the sorted comments are exactly the allocated comments of the post, newest first, without repeats |
| Comments.LemmaCommentPageRanks | controllers/commentController.js:52-57 | the ids the query returns stand at the page's ranks of the sorted comments, as many as skip and limit leave |
| Comments.LemmaCommentPageItems | controllers/commentController.js:52-69 | the ids the query returns, viewed, are the post's comments, newest first, without repeats, at most a page, at the page's ranks |
| Comments.GetCommentsByPostId | controllers/commentController.js:40-75 | 404 exactly for a missing post, 400 exactly for a negative skip, OK exactly otherwise; the count is the post's comments; item i is the comment at rank skip + i, newest first; no write |
| Comments.LemmaCreatedCommentCounted | controllers/commentController.js:5-57 | after a successful create the post's comment list counts one more item |
| Comments.UpdateCommentById | controllers/commentController.js:78-111 | 404, then 403 on a password mismatch, with no write; otherwise a truthy nickname or content replaces the old one, nothing else changes and no id is allocated |
| Comments.LemmaUpdateCommentIdempotent | controllers/commentController.js:94-98 | repeating the same update gives the same reply and store |
| Comments.DeleteCommentById | controllers/commentController.js:115-140 | same 404/403 gate; on success exactly that comment is removed and no id is allocated |
| Comments.LemmaDeleteCommentOnce | controllers/commentController.js:121-132 | deleting the same comment again answers 404 and writes nothing |

## Left out

- Routing, the Express application, the image-upload route and the server start-up are not modelled. They hold no logic of the handlers.
- Mongoose's casting of query strings and body values is not modelled. Numeric `page` and `pageSize`, a boolean group `isPublic` filter and string text fields are taken as already typed. Malformed values that make a cast or a query throw are left out, and so are the catch-all 400/500 answers that follow.
- Invalid ObjectId strings are not modelled. Ids are natural numbers, so `findById` cannot throw.
- Concurrency is not modelled. Handlers run one at a time, so the read-then-save races of the like handlers do not arise.
- The `$regex` pattern language and its `i` option are not modelled. The test is the parameter `matches`, except that the empty group keyword matches every name.
- The weekly badge window `setDate(getDate() - 7)` is modelled as exactly seven days of milliseconds. Local-time daylight-saving shifts are ignored.
- Groups.GetGroups: one clock value serves all the page's `checkBadges` calls.
- Groups.GetGroups: `currentPage` is the page as a number. The handler echoes the raw query string, and JSON would show it quoted.
- Paging.Filter: the contract states that kept documents keep their order only for ascending candidate lists. Every list query filters the ascending natural order, so no caller needs more.
- Paging.SortDesc: MongoDB leaves the order of equal keys unspecified. The model fixes it to creation order, so the model is one admissible order rather than every one.
- Posts.CreatePost: a post whose `group_id` fails to cast is left out, since ids are typed.

=== FILE: badges.dfy ===
/** Badge evaluation (`checkBadges`, controllers/groupController.js): five
    independent threshold checks over a group and its posts; each badge that
    is earned and not yet held is appended, and the group is written back only
    when something was appended. */
module Badges {
  import opened Wrappers
  import opened Schema
  import opened Storage

  const WeeklyBadge: string := "7일 연속 추억 등록"
  const VolumeBadge: string := "추억 수 20개 이상 등록"
  const LongevityBadge: string := "그룹 생성 후 1년 달성"
  const GroupLikesBadge: string := "그룹 공감 1만 개 이상 받기"
  const PostLikesBadge: string := "추억 공감 1만 개 이상 받기"

  /** Posts in the last seven days needed for the weekly badge. */
  const WeeklyPosts: int := 7
  /** Posts in total needed for the volume badge. */
  const VolumePosts: int := 20
  /** Whole days since creation needed for the longevity badge. */
  const LongevityDays: int := 365
  /** Likes needed for either popularity badge. */
  const LikesNeeded: int := 10000

  /** The posts whose `group_id` is `g`. */
  function PostsOf(posts: map<Id, Post>, g: Id): set<Id> {
    set id | id in posts && posts[id].groupId == g
  }

  /** The posts of `g` created at or after `since`. */
  function PostsSince(posts: map<Id, Post>, g: Id, since: int): set<Id> {
    set id | id in posts && posts[id].groupId == g && posts[id].createdAt >= since
  }

  /** `Math.floor((today - createdAt) / day)`; the divisor is positive, so
      Euclidean division is floor division. */
  function DaysPassed(now: int, createdAt: int): int {
    (now - createdAt) / Day
  }

  /** The start of the weekly window: `setDate(getDate() - 7)` read as exactly
      seven days of milliseconds. */
  function WeekAgo(now: int): int {
    now - 7 * Day
  }

  predicate WeeklyEarned(posts: map<Id, Post>, g: Id, now: int) {
    |PostsSince(posts, g, WeekAgo(now))| >= WeeklyPosts
  }

  predicate VolumeEarned(posts: map<Id, Post>, g: Id) {
    |PostsOf(posts, g)| >= VolumePosts
  }

  predicate LongevityEarned(group: Group, now: int) {
    DaysPassed(now, group.createdAt) >= LongevityDays
  }

  predicate GroupLikesEarned(group: Group) {
    group.likeCount >= LikesNeeded
  }

  /** `Post.findOne({ group_id, likes: { $gte: 10000 } })` finds a document. */
  predicate PostLikesEarned(posts: map<Id, Post>, g: Id) {
    exists id | id in posts :: posts[id].groupId == g && posts[id].likes >= LikesNeeded
  }

  /** The badge names selected by the five threshold outcomes. */
  function BadgeSet(weekly: bool, volume: bool, longevity: bool, groupLikes: bool, postLikes: bool): set<string> {
    (if weekly then {WeeklyBadge} else {})
    + (if volume then {VolumeBadge} else {})
    + (if longevity then {LongevityBadge} else {})
    + (if groupLikes then {GroupLikesBadge} else {})
    + (if postLikes then {PostLikesBadge} else {})
  }

  /** The badges whose thresholds group `g` currently meets. */
  function Earned(group: Group, posts: map<Id, Post>, g: Id, now: int): set<string> {
    BadgeSet(WeeklyEarned(posts, g, now), VolumeEarned(posts, g), LongevityEarned(group, now),
             GroupLikesEarned(group), PostLikesEarned(posts, g))
  }

  /** Every badge of `e` is in the list. */
  predicate HoldsAll(badges: seq<string>, e: set<string>) {
    forall b | b in e :: b in badges
  }

  /** Of the group document the thresholds read only its likes and creation
      time: not its badges, name, image, introduction or public flag. */
  lemma LemmaEarnedReadsLikesAndAge(a: Group, b: Group, posts: map<Id, Post>, g: Id, now: int)
    requires a.likeCount == b.likeCount && a.createdAt == b.createdAt
    ensures Earned(a, posts, g, now) == Earned(b, posts, g, now)
  {
  }

  /** `if (earned && !badges.includes(badge)) badges.push(badge)`. */
  function AddIfEarned(badges: seq<string>, badge: string, earned: bool): (r: seq<string>)
    ensures badges <= r
    ensures forall b :: b in r <==> b in badges || (earned && b == badge)
    ensures Distinct(badges) ==> Distinct(r)
    ensures |r| == |badges| <==> (!earned || badge in badges)
  {
    if earned && badge !in badges then badges + [badge] else badges
  }

  /** The five checks in the source's order, given their outcomes. */
  function AddAll(badges: seq<string>, weekly: bool, volume: bool, longevity: bool,
                  groupLikes: bool, postLikes: bool): (r: seq<string>)
    ensures badges <= r
    ensures Distinct(badges) ==> Distinct(r)
    ensures forall b :: b in r <==> b in badges || b in BadgeSet(weekly, volume, longevity, groupLikes, postLikes)
  {
    var b1 := AddIfEarned(badges, WeeklyBadge, weekly);
    var b2 := AddIfEarned(b1, VolumeBadge, volume);
    var b3 := AddIfEarned(b2, LongevityBadge, longevity);
    var b4 := AddIfEarned(b3, GroupLikesBadge, groupLikes);
    AddIfEarned(b4, PostLikesBadge, postLikes)
  }

  /** The badge list after the five checks. */
  function Evaluate(group: Group, posts: map<Id, Post>, g: Id, now: int): (r: seq<string>)
    ensures group.badges <= r
    ensures Distinct(group.badges) ==> Distinct(r)
    ensures forall b :: b in r <==> b in group.badges || b in Earned(group, posts, g, now)
  {
    AddAll(group.badges, WeeklyEarned(posts, g, now), VolumeEarned(posts, g),
           LongevityEarned(group, now), GroupLikesEarned(group), PostLikesEarned(posts, g))
  }

  /** `checkBadges(groupId)` at time `now`: a missing group is a no-op; the
      group is saved only when some badge was appended. */
  function CheckBadges(s: Store, g: Id, now: int): (r: Store)
    ensures g !in s.groups ==> r == s
    ensures r.posts == s.posts && r.comments == s.comments && r.nextId == s.nextId
    ensures r.groups.Keys == s.groups.Keys
    ensures forall other | other in s.groups && other != g :: r.groups[other] == s.groups[other]
    ensures g in s.groups ==>
      && r.groups[g] == s.groups[g].(badges := r.groups[g].badges)
      && s.groups[g].badges <= r.groups[g].badges
      && (forall b :: b in r.groups[g].badges <==>
            b in s.groups[g].badges || b in Earned(s.groups[g], s.posts, g, now))
      && (r == s <==> HoldsAll(s.groups[g].badges, Earned(s.groups[g], s.posts, g, now)))
    ensures Valid(s) ==> Valid(r)
  {
    if g !in s.groups then s
    else
      var group := s.groups[g];
      var badges := Evaluate(group, s.posts, g, now);
      if |badges| == |group.badges| then s
      else s.(groups := s.groups[g := group.(badges := badges)])
  }

  /** The five badge names are pairwise different. */
  lemma LemmaBadgeNamesDistinct()
    ensures Distinct([WeeklyBadge, VolumeBadge, LongevityBadge, GroupLikesBadge, PostLikesBadge])
  {
    assert WeeklyBadge[0] == '7';
    assert VolumeBadge[0] == '추' && VolumeBadge[3] == '수';
    assert LongevityBadge[0] == '그' && LongevityBadge[3] == '생';
    assert GroupLikesBadge[0] == '그' && GroupLikesBadge[3] == '공';
    assert PostLikesBadge[0] == '추' && PostLikesBadge[3] == '공';
  }

  /** At least 365 whole days have passed exactly when at least 365 days of
      milliseconds have. */
  lemma LemmaLongevityInMillis(now: int, createdAt: int)
    ensures DaysPassed(now, createdAt) >= LongevityDays <==> now - createdAt >= LongevityDays * Day
  {
    var x := now - createdAt;
    var q := x / Day;
    assert x == q * Day + x % Day;
    if q >= LongevityDays {
      assert q * Day >= LongevityDays * Day;
    } else {
      assert q * Day <= (LongevityDays - 1) * Day;
    }
  }

  /** Each badge is held after `checkBadges` exactly when it was held before or
      its threshold is met now. */
  lemma LemmaBadgeThresholds(s: Store, g: Id, now: int)
    requires g in s.groups
    ensures var before := s.groups[g].badges;
      var after := CheckBadges(s, g, now).groups[g].badges;
      && (WeeklyBadge in after <==>
            WeeklyBadge in before || |PostsSince(s.posts, g, now - 7 * Day)| >= 7)
      && (VolumeBadge in after <==> VolumeBadge in before || |PostsOf(s.posts, g)| >= 20)
      && (LongevityBadge in after <==>
            LongevityBadge in before || now - s.groups[g].createdAt >= 365 * Day)
      && (GroupLikesBadge in after <==> GroupLikesBadge in before || s.groups[g].likeCount >= 10000)
      && (PostLikesBadge in after <==>
            PostLikesBadge in before ||
            exists p | p in s.posts :: s.posts[p].groupId == g && s.posts[p].likes >= 10000)
  {
    var group := s.groups[g];
    LemmaBadgeSetMembers(WeeklyEarned(s.posts, g, now), VolumeEarned(s.posts, g),
                         LongevityEarned(group, now), GroupLikesEarned(group),
                         PostLikesEarned(s.posts, g));
    LemmaLongevityInMillis(now, group.createdAt);
  }

  /** Each badge name is in the selected set exactly when its own check
      passed. */
  lemma LemmaBadgeSetMembers(weekly: bool, volume: bool, longevity: bool, groupLikes: bool, postLikes: bool)
    ensures var e := BadgeSet(weekly, volume, longevity, groupLikes, postLikes);
      && (WeeklyBadge in e <==> weekly)
      && (VolumeBadge in e <==> volume)
      && (LongevityBadge in e <==> longevity)
      && (GroupLikesBadge in e <==> groupLikes)
      && (PostLikesBadge in e <==> postLikes)
  {
    LemmaBadgeNamesDistinct();
    var names := [WeeklyBadge, VolumeBadge, LongevityBadge, GroupLikesBadge, PostLikesBadge];
    assert WeeklyBadge == names[0] && VolumeBadge == names[1] && LongevityBadge == names[2];
    assert GroupLikesBadge == names[3] && PostLikesBadge == names[4];
  }

  /** Running `checkBadges` again with the same posts, likes and time adds
      nothing and writes nothing. */
  lemma LemmaCheckBadgesIdempotent(s: Store, g: Id, now: int)
    ensures CheckBadges(CheckBadges(s, g, now), g, now) == CheckBadges(s, g, now)
  {
    var r := CheckBadges(s, g, now);
    if g in s.groups {
      var group := s.groups[g];
      LemmaEarnedReadsLikesAndAge(group.(badges := r.groups[g].badges), group, s.posts, g, now);
      assert r.groups[g] == group.(badges := r.groups[g].badges);
      assert HoldsAll(r.groups[g].badges, Earned(r.groups[g], r.posts, g, now));
    }
  }

  /** `checkBadges` on one group reads only that group and the posts. */
  lemma LemmaCheckBadgesLocal(s: Store, t: Store, g: Id, now: int)
    requires g in s.groups && g in t.groups && s.groups[g] == t.groups[g] && s.posts == t.posts
    ensures CheckBadges(s, g, now).groups[g] == CheckBadges(t, g, now).groups[g]
  {
  }

  /** `checkBadges` for each listed group in turn, as the group list does. */
  function CheckEach(s: Store, gs: seq<Id>, now: int): (r: Store)
    ensures r.posts == s.posts && r.comments == s.comments && r.nextId == s.nextId
    ensures r.groups.Keys == s.groups.Keys
    ensures forall g | g in s.groups && g !in gs :: r.groups[g] == s.groups[g]
    ensures forall g | g in s.groups && g in gs :: r.groups[g] == s.groups[g].(badges := r.groups[g].badges)
    ensures Valid(s) ==> Valid(r)
    decreases |gs|
  {
    if gs == [] then s
    else
      var r := CheckEach(CheckBadges(s, gs[0], now), gs[1..], now);
      assert forall g | g !in gs :: g != gs[0] && g !in gs[1..];
      r
  }

  /** Evaluating the listed groups one after another leaves each of them as
      a single evaluation on the original store would, duplicates included. */
  lemma {:induction false} LemmaCheckEachPerGroup(s: Store, gs: seq<Id>, now: int, g: Id)
    requires g in s.groups && g in gs
    ensures CheckEach(s, gs, now).groups[g] == CheckBadges(s, g, now).groups[g]
    decreases |gs|
  {
    var s1 := CheckBadges(s, gs[0], now);
    if g in gs[1..] {
      LemmaCheckEachPerGroup(s1, gs[1..], now, g);
      if g == gs[0] {
        LemmaCheckBadgesIdempotent(s, g, now);
      } else {
        LemmaCheckBadgesLocal(s1, s, g, now);
      }
    } else {
      assert g == gs[0];
    }
  }
}

=== FILE: comments.dfy ===
/** The comment handlers of controllers/commentController.js as transitions
    of the store. */
module Comments {
  import opened Wrappers
  import opened Js
  import opened Schema
  import opened Storage
  import opened Paging

  /** The comment projection every comment handler sends (no password, no
      post id). */
  datatype CommentView = CommentView(id: Id, nickname: string, content: string, createdAt: int)

  function ViewOf(id: Id, c: Comment): CommentView {
    CommentView(id, c.nickname, c.content, c.createdAt)
  }

  // ---------------------------------------------------------------- create

  /** The body of `POST /posts/:postId/comments`. */
  datatype CreateCommentBody = CreateCommentBody(
    nickname: Option<string>,
    content: Option<string>,
    password: Option<string>)

  predicate CreateCommentBodyOk(b: CreateCommentBody) {
    Truthy(b.nickname) && Truthy(b.content) && Truthy(b.password)
  }

  /** `createComment`: 404 and no write when the post is missing; a failed
      schema validation ends in the handler's 400 with no write; otherwise the
      comment is stored under a fresh id and its projection, without the
      password, is sent back with status 200. The post's `comments_count` is
      not touched. */
  function CreateComment(s: Store, postId: Id, body: CreateCommentBody, now: int)
    : (r: Reply<CommentView>)
    ensures postId !in s.posts ==> r.status == NotFound && r.store == s
    ensures r.status == OK <==> postId in s.posts && CreateCommentBodyOk(body)
    ensures postId in s.posts && !CreateCommentBodyOk(body) ==>
      r.status == BadRequest && r.store == s
    ensures r.status == OK ==>
      && var id := s.nextId;
      && id in r.store.comments
      && var c := r.store.comments[id];
      && c.postId == postId && c.nickname == body.nickname.value
      && c.content == body.content.value && c.password == body.password.value
      && c.createdAt == now
      && r.store.comments == s.comments[id := c]
      && r.body == Some(CommentView(id, body.nickname.value, body.content.value, now))
      && r.store.groups == s.groups && r.store.posts == s.posts
      && r.store.nextId > id
      && (Valid(s) ==> id !in s.comments)
    ensures Valid(s) ==> Valid(r.store)
  {
    if postId !in s.posts then Refuse(s, NotFound)
    else
      var c := NewComment(postId, body.nickname.GetOr(""), body.content.GetOr(""),
                          body.password.GetOr(""), now);
      if !CommentSavable(c) then Refuse(s, BadRequest)
      else
        var id := s.nextId;
        Reply(OK, Some(ViewOf(id, c)), s.(comments := s.comments[id := c], nextId := id + 1))
  }

  // ------------------------------------------------------------------ list

  predicate CommentListed(comments: map<Id, Comment>, postId: Id, id: Id) {
    id in comments && comments[id].postId == postId
  }

  function CommentFilter(comments: map<Id, Comment>, postId: Id): Id -> bool {
    (id: Id) => CommentListed(comments, postId, id)
  }

  /** The fixed order of the comment list: `created_at`, newest first. */
  function CommentOrder(comments: map<Id, Comment>): Id -> int {
    (id: Id) => if id in comments then comments[id].createdAt else 0
  }

  function Views(comments: map<Id, Comment>, ids: seq<Id>): (r: seq<CommentView>)
    requires forall id | id in ids :: id in comments
    ensures |r| == |ids|
    ensures forall i | 0 <= i < |ids| :: r[i] == ViewOf(ids[i], comments[ids[i]])
  {
    seq(|ids|, i requires 0 <= i < |ids| => ViewOf(ids[i], comments[ids[i]]))
  }

  /** The comments of one post. */
  function CommentsOf(s: Store, postId: Id): set<Id> {
    set id | id in s.comments && s.comments[id].postId == postId
  }

  lemma LemmaCommentCount(s: Store, postId: Id, candidates: seq<Id>)
    requires candidates == NaturalOrder(s.comments, s.nextId)
    ensures Valid(s) ==> |Filter(candidates, CommentFilter(s.comments, postId))| == |CommentsOf(s, postId)|
  {
    if Valid(s) {
      var matching := Filter(candidates, CommentFilter(s.comments, postId));
      assert Distinct(matching) by {
        LemmaIncreasingDistinct(candidates);
      }
      LemmaDistinctCount(matching);
      assert Elems(matching) == CommentsOf(s, postId) by {
        assert forall x :: x in Elems(matching) <==> x in matching;
      }
    }
  }

  /** Every comment of the post, newest first. */
  function RankedComments(s: Store, postId: Id): (r: seq<Id>)
    ensures forall id: Id :: id in r <==> id < s.nextId && CommentListed(s.comments, postId, id)
    ensures forall i | 0 <= i < |r| :: r[i] in s.comments
    ensures forall i, j | 0 <= i < j < |r| ::
      s.comments[r[i]].createdAt >= s.comments[r[j]].createdAt
    ensures Distinct(r)
  {
    var candidates := NaturalOrder(s.comments, s.nextId);
    LemmaIncreasingDistinct(candidates);
    var key := CommentOrder(s.comments);
    var r := Ranked(candidates, CommentFilter(s.comments, postId), key);
    assert forall i | 0 <= i < |r| :: r[i] in s.comments && key(r[i]) == s.comments[r[i]].createdAt by {
      forall i | 0 <= i < |r| ensures r[i] in s.comments {
        assert r[i] in r;
      }
    }
    r
  }

  /** What a page of the comment list holds: views of the post's comments,
      newest first and without repeats, at most a page of them; precisely
      the comments from rank `skip` on, as many as `limit` lets through. */
  predicate ListedPage(s: Store, postId: Id, page: int, pageSize: int, data: seq<CommentView>)
    requires Skip(page, pageSize) >= 0
  {
    var ranked := RankedComments(s, postId);
    var skip := Skip(page, pageSize);
    && (forall i | 0 <= i < |data| ::
          && data[i].id in s.comments
          && s.comments[data[i].id].postId == postId
          && data[i] == ViewOf(data[i].id, s.comments[data[i].id]))
    && (forall i, j | 0 <= i < j < |data| :: data[i].createdAt >= data[j].createdAt)
    && (forall i, j | 0 <= i < j < |data| :: data[i].id != data[j].id)
    && (pageSize > 0 ==> |data| <= pageSize)
    && |data| == PageLength(|ranked|, skip, Limit(pageSize))
    && (forall i | 0 <= i < |data| :: skip + i < |ranked| && data[i].id == ranked[skip + i])
  }

  /** The ids `Select` returns are the post's comments from rank `skip` on. */
  lemma LemmaCommentPageRanks(s: Store, postId: Id, page: int, pageSize: int, ids: seq<Id>)
    requires Skip(page, pageSize) >= 0
    requires ids == Select(NaturalOrder(s.comments, s.nextId), CommentFilter(s.comments, postId),
                           CommentOrder(s.comments), page, pageSize).value.ids
    ensures var ranked := RankedComments(s, postId);
      var skip := Skip(page, pageSize);
      && |ids| == PageLength(|ranked|, skip, Limit(pageSize))
      && (forall i | 0 <= i < |ids| :: skip + i < |ranked| && ids[i] == ranked[skip + i])
  {
  }

  /** Ids of the post's comments, newest first and without repeats, viewed
      in the same order. */
  lemma LemmaCommentPageViews(comments: map<Id, Comment>, postId: Id, ids: seq<Id>)
    requires forall id | id in ids :: CommentListed(comments, postId, id)
    requires SortedDesc(ids, CommentOrder(comments))
    requires Distinct(ids)
    ensures forall id | id in ids :: id in comments
    ensures var data := Views(comments, ids);
      && (forall i | 0 <= i < |data| ::
            && data[i].id == ids[i]
            && data[i].id in comments
            && comments[data[i].id].postId == postId
            && data[i] == ViewOf(data[i].id, comments[data[i].id]))
      && (forall i, j | 0 <= i < j < |data| :: data[i].createdAt >= data[j].createdAt)
      && (forall i, j | 0 <= i < j < |data| :: data[i].id != data[j].id)
  {
    var data := Views(comments, ids);
    var key := CommentOrder(comments);
    forall i | 0 <= i < |ids|
      ensures data[i].id == ids[i] && CommentListed(comments, postId, ids[i])
      ensures data[i].createdAt == key(ids[i])
    {
      assert ids[i] in ids;
    }
  }

  /** The ids `Select` returns make a listed page once viewed. */
  lemma LemmaCommentPageItems(s: Store, postId: Id, page: int, pageSize: int, ids: seq<Id>)
    requires Skip(page, pageSize) >= 0
    requires ids == Select(NaturalOrder(s.comments, s.nextId), CommentFilter(s.comments, postId),
                           CommentOrder(s.comments), page, pageSize).value.ids
    ensures forall id | id in ids :: id in s.comments
    ensures ListedPage(s, postId, page, pageSize, Views(s.comments, ids))
  {
    LemmaIncreasingDistinct(NaturalOrder(s.comments, s.nextId));
    LemmaCommentPageViews(s.comments, postId, ids);
    LemmaCommentPageRanks(s, postId, page, pageSize, ids);
  }

  /** `getCommentsByPostId`: 404 for a missing post; otherwise the post's
      comments, newest first, paged; the store is only read. A negative skip
      is refused by the store (400). */
  function GetCommentsByPostId(s: Store, postId: Id, page: Option<int>, pageSize: Option<int>)
    : (r: Reply<Page<CommentView>>)
    ensures r.store == s
    ensures r.status == NotFound <==> postId !in s.posts
    ensures r.status == BadRequest <==>
      postId in s.posts && Skip(page.GetOr(1), pageSize.GetOr(10)) < 0
    ensures r.status == OK <==>
      postId in s.posts && Skip(page.GetOr(1), pageSize.GetOr(10)) >= 0
    ensures r.status == OK ==>
      && r.body.Some?
      && var p := r.body.value;
      && p.currentPage == page.GetOr(1)
      && p.totalPages == TotalPages(p.totalItemCount, pageSize.GetOr(10))
      && (Valid(s) ==> p.totalItemCount == |CommentsOf(s, postId)|)
      && ListedPage(s, postId, page.GetOr(1), pageSize.GetOr(10), p.data)
  {
    if postId !in s.posts then Refuse(s, NotFound)
    else
      var candidates := NaturalOrder(s.comments, s.nextId);
      var key := CommentOrder(s.comments);
      var listing := Select(candidates, CommentFilter(s.comments, postId), key,
                            page.GetOr(1), pageSize.GetOr(10));
      if listing.None? then Refuse(s, BadRequest)
      else
        var ids := listing.value.ids;
        var data := Views(s.comments, ids);
        LemmaIncreasingDistinct(candidates);
        LemmaCommentCount(s, postId, candidates);
        LemmaCommentPageItems(s, postId, page.GetOr(1), pageSize.GetOr(10), ids);
        Reply(OK, Some(Page(page.GetOr(1), listing.value.totalPages, listing.value.totalItemCount,
                            data)), s)
  }

  // ---------------------------------------------------------------- update

  /** The body of `PUT /comments/:commentId`. */
  datatype UpdateCommentBody = UpdateCommentBody(
    nickname: Option<string>,
    content: Option<string>,
    password: Option<string>)

  /** `updateCommentById`: 404 for a missing comment, then 403 unless the
      stored password equals the supplied one, with no write on either;
      otherwise only `nickname` and `content` change, each kept when the new
      value is falsy. */
  function UpdateCommentById(s: Store, id: Id, body: UpdateCommentBody): (r: Reply<CommentView>)
    ensures id !in s.comments ==> r.status == NotFound && r.store == s
    ensures id in s.comments && body.password != Some(s.comments[id].password) ==>
      r.status == Forbidden && r.store == s
    ensures r.status == OK <==> id in s.comments && body.password == Some(s.comments[id].password)
    ensures r.status == OK ==>
      && var before := s.comments[id];
      && r.store.comments.Keys == s.comments.Keys
      && var after := r.store.comments[id];
      && (Truthy(body.nickname) ==> after.nickname == body.nickname.value)
      && (!Truthy(body.nickname) ==> after.nickname == before.nickname)
      && (Truthy(body.content) ==> after.content == body.content.value)
      && (!Truthy(body.content) ==> after.content == before.content)
      && after.postId == before.postId && after.password == before.password
      && after.createdAt == before.createdAt
      && r.body == Some(ViewOf(id, after))
      && (forall other | other in s.comments && other != id ::
            r.store.comments[other] == s.comments[other])
      && r.store.groups == s.groups && r.store.posts == s.posts
    ensures r.store.nextId == s.nextId
    ensures Valid(s) ==> Valid(r.store)
  {
    if id !in s.comments then Refuse(s, NotFound)
    else if body.password != Some(s.comments[id].password) then Refuse(s, Forbidden)
    else
      var c := s.comments[id];
      var merged := c.(nickname := Or(body.nickname, c.nickname),
                       content := Or(body.content, c.content));
      Reply(OK, Some(ViewOf(id, merged)), s.(comments := s.comments[id := merged]))
  }

  // ---------------------------------------------------------------- delete

  /** `deleteCommentById`: the same 404/403 gate; on success exactly that
      comment is removed. */
  function DeleteCommentById(s: Store, id: Id, password: Option<string>): (r: Reply<Ack>)
    ensures id !in s.comments ==> r.status == NotFound && r.store == s
    ensures id in s.comments && password != Some(s.comments[id].password) ==>
      r.status == Forbidden && r.store == s
    ensures r.status == OK <==> id in s.comments && password == Some(s.comments[id].password)
    ensures r.status == OK ==>
      && r.store.comments.Keys == s.comments.Keys - {id}
      && (forall other | other in r.store.comments :: r.store.comments[other] == s.comments[other])
      && r.store.groups == s.groups && r.store.posts == s.posts
    ensures r.store.nextId == s.nextId
    ensures Valid(s) ==> Valid(r.store)
  {
    if id !in s.comments then Refuse(s, NotFound)
    else if password != Some(s.comments[id].password) then Refuse(s, Forbidden)
    else Reply(OK, Some(Ack), s.(comments := s.comments - {id}))
  }

  /** A successful `createComment` adds exactly one comment to its post, so
      the post's comment list then counts one more item. */
  lemma LemmaCreatedCommentCounted(s: Store, postId: Id, body: CreateCommentBody, now: int)
    requires Valid(s) && postId in s.posts && CreateCommentBodyOk(body)
    ensures var c := CreateComment(s, postId, body, now);
      var l := GetCommentsByPostId(c.store, postId, None, None);
      && l.status == OK
      && l.body.value.totalItemCount == |CommentsOf(s, postId)| + 1
  {
    var c := CreateComment(s, postId, body, now);
    var t := c.store;
    assert Valid(t);
    assert postId in t.posts;
    var before := CommentsOf(s, postId);
    assert s.nextId !in before;
    assert CommentsOf(t, postId) == before + {s.nextId} by {
      forall x ensures x in CommentsOf(t, postId) <==> x in before + {s.nextId} {
        if x == s.nextId {
          assert t.comments[x].postId == postId;
        } else {
          assert (x in t.comments) == (x in s.comments);
        }
      }
    }
    var l := GetCommentsByPostId(t, postId, None, None);
    assert Skip(1, 10) == 0;
    assert l.status == OK;
  }

  /** Repeating the same comment update changes nothing further and gives the
      same reply. */
  lemma LemmaUpdateCommentIdempotent(s: Store, id: Id, body: UpdateCommentBody)
    ensures var r := UpdateCommentById(s, id, body);
      UpdateCommentById(r.store, id, body) == r
  {
  }

  /** A comment deleted once is gone: deleting it again answers 404 and
      writes nothing. */
  lemma LemmaDeleteCommentOnce(s: Store, id: Id, password: Option<string>)
    requires DeleteCommentById(s, id, password).status == OK
    ensures var t := DeleteCommentById(s, id, password).store;
      var r := DeleteCommentById(t, id, password);
      r.status == NotFound && r.store == t
  {
  }
}

=== FILE: groups.dfy ===
/** The group handlers of controllers/groupController.js as transitions of the
    store: each takes the store and the request and returns the status, the
    response payload and the store afterwards. `now` is the request's clock in
    milliseconds. */
module Groups {
  import opened Wrappers
  import opened Js
  import opened Schema
  import opened Storage
  import opened Paging
  import opened Badges

  /** The group projection the detail handler sends (no password). */
  datatype GroupView = GroupView(
    id: Id,
    name: string,
    imageUrl: Option<string>,
    isPublic: bool,
    likeCount: int,
    postCount: int,
    createdAt: int,
    introduction: Option<string>,
    badges: seq<string>)

  /** The group projection of the list handler: the detail fields plus the
      number of badges. */
  datatype GroupSummary = GroupSummary(
    id: Id,
    name: string,
    imageUrl: Option<string>,
    isPublic: bool,
    likeCount: int,
    badgeCount: int,
    postCount: int,
    createdAt: int,
    introduction: Option<string>,
    badges: seq<string>)

  function View(id: Id, g: Group): GroupView {
    GroupView(id, g.name, g.imageUrl, g.isPublic, g.likeCount, g.postCount, g.createdAt,
              g.introduction, g.badges)
  }

  function Summary(id: Id, g: Group): GroupSummary {
    GroupSummary(id, g.name, g.imageUrl, g.isPublic, g.likeCount, |g.badges|, g.postCount,
                 g.createdAt, g.introduction, g.badges)
  }

  // ---------------------------------------------------------------- create

  /** The body of `POST /groups`. `isPublic` is None unless the body holds a
      boolean there. */
  datatype CreateGroupBody = CreateGroupBody(
    name: Option<string>,
    password: Option<string>,
    imageUrl: Option<string>,
    isPublic: Option<bool>,
    introduction: Option<string>)

  /** The handler's guard: every text field truthy, `isPublic` a boolean. */
  predicate CreateGroupBodyOk(b: CreateGroupBody) {
    Truthy(b.name) && Truthy(b.password) && Truthy(b.imageUrl) && b.isPublic.Some?
    && Truthy(b.introduction)
  }

  /** `createGroup`: 400 and no write unless the guard passes; otherwise the
      group is stored under a fresh id with the schema defaults and sent back
      whole, password included. */
  function CreateGroup(s: Store, body: CreateGroupBody, now: int): (r: Reply<Saved<Group>>)
    ensures r.status == Created <==> CreateGroupBodyOk(body)
    ensures r.status != Created ==> r.status == BadRequest && r.store == s
    ensures r.status == Created ==>
      && r.body.Some?
      && var id := r.body.value.id;
      && var g := r.body.value.doc;
      && id == s.nextId
      && g.name == body.name.value && g.password == body.password
      && g.imageUrl == body.imageUrl && g.introduction == body.introduction
      && g.isPublic == body.isPublic.value
      && g.likeCount == 0 && g.postCount == 0 && g.badges == [] && g.createdAt == now
      && r.store.groups == s.groups[id := g]
      && r.store.posts == s.posts && r.store.comments == s.comments
      && r.store.nextId > id
      && (Valid(s) ==> id !in s.groups)
    ensures Valid(s) ==> Valid(r.store)
  {
    if !CreateGroupBodyOk(body) then Refuse(s, BadRequest)
    else
      var g := NewGroup(body.name.value, body.password, body.imageUrl, body.isPublic,
                        body.introduction, now);
      var id := s.nextId;
      Reply(Created, Some(Saved(id, g)),
            s.(groups := s.groups[id := g], nextId := id + 1))
  }

  // ------------------------------------------------------------------ list

  /** The query string of `GET /groups`, with None for an absent parameter. */
  datatype GroupQuery = GroupQuery(
    page: Option<int>,
    pageSize: Option<int>,
    sortBy: Option<string>,
    keyword: Option<string>,
    isPublic: Option<bool>)

  function PageOf(q: GroupQuery): int { q.page.GetOr(1) }
  function PageSizeOf(q: GroupQuery): int { q.pageSize.GetOr(10) }
  function SortByOf(q: GroupQuery): string { q.sortBy.GetOr("latest") }
  function KeywordOf(q: GroupQuery): string { q.keyword.GetOr("") }

  /** The list filter: the name matches the keyword and, when given, the
      public flag is equal. */
  predicate GroupListed(groups: map<Id, Group>, q: GroupQuery,
                        matches: (string, string) -> bool, id: Id) {
    && id in groups
    && KeywordHit(matches, KeywordOf(q), groups[id].name)
    && (q.isPublic.None? || groups[id].isPublic == q.isPublic.value)
  }

  /** The sort field for `sortBy`. `badgeCount` is not a stored path, so under
      `mostBadge` every group has the same (missing) key. */
  function GroupSortKey(sortBy: string, groups: map<Id, Group>, id: Id): int {
    if sortBy == "mostBadge" || id !in groups then 0
    else if sortBy == "mostPosted" then groups[id].postCount
    else if sortBy == "mostLiked" then groups[id].likeCount
    else groups[id].createdAt
  }

  function GroupFilter(groups: map<Id, Group>, q: GroupQuery, matches: (string, string) -> bool)
    : Id -> bool
  {
    (id: Id) => GroupListed(groups, q, matches, id)
  }

  function GroupOrder(sortBy: string, groups: map<Id, Group>): Id -> int {
    (id: Id) => GroupSortKey(sortBy, groups, id)
  }

  function Summaries(groups: map<Id, Group>, ids: seq<Id>): (r: seq<GroupSummary>)
    requires forall id | id in ids :: id in groups
    ensures |r| == |ids|
    ensures forall i | 0 <= i < |ids| :: r[i] == Summary(ids[i], groups[ids[i]])
  {
    seq(|ids|, i requires 0 <= i < |ids| => Summary(ids[i], groups[ids[i]]))
  }

  /** The set of ids a page lists. */
  function Ids(data: seq<GroupSummary>): set<Id> {
    set i | 0 <= i < |data| :: data[i].id
  }

  /** The groups the list filter selects. */
  function MatchingGroups(s: Store, q: GroupQuery, matches: (string, string) -> bool): set<Id> {
    set id | id in s.groups && GroupListed(s.groups, q, matches, id)
  }

  /** Every group the list filter selects, in the order of the sort. */
  function RankedGroups(s: Store, q: GroupQuery, matches: (string, string) -> bool): (r: seq<Id>)
    ensures forall id: Id :: id in r <==> id < s.nextId && GroupListed(s.groups, q, matches, id)
    ensures forall i, j | 0 <= i < j < |r| ::
      GroupSortKey(SortByOf(q), s.groups, r[i]) >= GroupSortKey(SortByOf(q), s.groups, r[j])
    ensures Distinct(r)
  {
    var candidates := NaturalOrder(s.groups, s.nextId);
    LemmaIncreasingDistinct(candidates);
    Ranked(candidates, GroupFilter(s.groups, q, matches), GroupOrder(SortByOf(q), s.groups))
  }

  /** What a page of the group list holds: summaries of listed groups, in
      sort order and without repeats, at most a page of them; precisely the
      sorted matches from rank `skip` on, as many as `limit` lets through. */
  predicate ListedPage(s: Store, q: GroupQuery, matches: (string, string) -> bool,
                       data: seq<GroupSummary>)
    requires Skip(PageOf(q), PageSizeOf(q)) >= 0
  {
    var ranked := RankedGroups(s, q, matches);
    var skip := Skip(PageOf(q), PageSizeOf(q));
    && (forall i | 0 <= i < |data| ::
          && data[i].id in s.groups
          && GroupListed(s.groups, q, matches, data[i].id)
          && data[i] == Summary(data[i].id, s.groups[data[i].id]))
    && (forall i, j | 0 <= i < j < |data| ::
          GroupSortKey(SortByOf(q), s.groups, data[i].id)
          >= GroupSortKey(SortByOf(q), s.groups, data[j].id))
    && (forall i, j | 0 <= i < j < |data| :: data[i].id != data[j].id)
    && (PageSizeOf(q) > 0 ==> |data| <= PageSizeOf(q))
    && |data| == PageLength(|ranked|, skip, Limit(PageSizeOf(q)))
    && (forall i | 0 <= i < |data| :: skip + i < |ranked| && data[i].id == ranked[skip + i])
  }

  /** `getGroups`: filter, sort, page, then `checkBadges` on every group of the
      page; the items are built from the documents loaded before that
      evaluation. A negative skip is refused by the store (400). */
  function GetGroups(s: Store, q: GroupQuery, matches: (string, string) -> bool, now: int)
    : (r: Reply<Page<GroupSummary>>)
    ensures r.status == BadRequest <==> Skip(PageOf(q), PageSizeOf(q)) < 0
    ensures r.status != OK ==> r.status == BadRequest && r.store == s
    ensures r.status == OK ==>
      && r.body.Some?
      && var p := r.body.value;
      && p.currentPage == PageOf(q)
      && p.totalPages == TotalPages(p.totalItemCount, PageSizeOf(q))
      && (Valid(s) ==> p.totalItemCount == |MatchingGroups(s, q, matches)|)
      && ListedPage(s, q, matches, p.data)
      && r.store.posts == s.posts && r.store.comments == s.comments
      && r.store.nextId == s.nextId
      && r.store.groups.Keys == s.groups.Keys
      && (forall i | 0 <= i < |p.data| ::
            r.store.groups[p.data[i].id] == CheckBadges(s, p.data[i].id, now).groups[p.data[i].id])
      && (forall id | id in s.groups && id !in Ids(p.data) :: r.store.groups[id] == s.groups[id])
    ensures Valid(s) ==> Valid(r.store)
  {
    var page := PageOf(q);
    var pageSize := PageSizeOf(q);
    var candidates := NaturalOrder(s.groups, s.nextId);
    var keep := GroupFilter(s.groups, q, matches);
    var key := GroupOrder(SortByOf(q), s.groups);
    var listing := Select(candidates, keep, key, page, pageSize);
    if listing.None? then Refuse(s, BadRequest)
    else
      var ids := listing.value.ids;
      var data := Summaries(s.groups, ids);
      var after := CheckEach(s, ids, now);
      LemmaIncreasingDistinct(candidates);
      LemmaGroupCount(s, q, matches, candidates, keep);
      LemmaPageEvaluation(s, now, ids, data);
      LemmaPageItems(s, q, matches, ids);
      Reply(OK, Some(Page(page, listing.value.totalPages, listing.value.totalItemCount, data)), after)
  }

  /** Under `Valid`, the count of the filtered natural order is the number of
      groups the filter selects. */
  lemma LemmaGroupCount(s: Store, q: GroupQuery, matches: (string, string) -> bool,
                        candidates: seq<Id>, keep: Id -> bool)
    requires candidates == NaturalOrder(s.groups, s.nextId)
    requires forall id :: keep(id) == GroupListed(s.groups, q, matches, id)
    ensures Valid(s) ==> |Filter(candidates, keep)| == |MatchingGroups(s, q, matches)|
  {
    if Valid(s) {
      var matching := Filter(candidates, keep);
      assert Distinct(matching) by {
        LemmaIncreasingDistinct(candidates);
      }
      LemmaDistinctCount(matching);
      assert Elems(matching) == MatchingGroups(s, q, matches) by {
        assert forall x :: x in Elems(matching) <==> x in matching;
      }
    }
  }

  /** Ids of listed groups in sort order and without repeats, summarised in
      the same order. */
  lemma LemmaPageSummaries(groups: map<Id, Group>, q: GroupQuery,
                           matches: (string, string) -> bool, ids: seq<Id>)
    requires forall id | id in ids :: GroupListed(groups, q, matches, id)
    requires SortedDesc(ids, GroupOrder(SortByOf(q), groups))
    requires Distinct(ids)
    ensures forall id | id in ids :: id in groups
    ensures var data := Summaries(groups, ids);
      && (forall i | 0 <= i < |data| ::
            && data[i].id == ids[i]
            && data[i].id in groups
            && GroupListed(groups, q, matches, data[i].id)
            && data[i] == Summary(data[i].id, groups[data[i].id]))
      && (forall i, j | 0 <= i < j < |data| ::
            GroupSortKey(SortByOf(q), groups, data[i].id)
            >= GroupSortKey(SortByOf(q), groups, data[j].id))
      && (forall i, j | 0 <= i < j < |data| :: data[i].id != data[j].id)
  {
    var data := Summaries(groups, ids);
    forall i | 0 <= i < |ids|
      ensures data[i].id == ids[i] && GroupListed(groups, q, matches, ids[i])
    {
      assert ids[i] in ids;
    }
  }

  /** The ids `Select` returns stand at the page's ranks of the sorted matches. */
  lemma LemmaPageRanks(s: Store, q: GroupQuery, matches: (string, string) -> bool, ids: seq<Id>)
    requires Skip(PageOf(q), PageSizeOf(q)) >= 0
    requires ids == Select(NaturalOrder(s.groups, s.nextId), GroupFilter(s.groups, q, matches),
                           GroupOrder(SortByOf(q), s.groups), PageOf(q), PageSizeOf(q)).value.ids
    ensures var ranked := RankedGroups(s, q, matches);
      var skip := Skip(PageOf(q), PageSizeOf(q));
      && |ids| == PageLength(|ranked|, skip, Limit(PageSizeOf(q)))
      && (forall i | 0 <= i < |ids| :: skip + i < |ranked| && ids[i] == ranked[skip + i])
  {
  }

  /** The ids `Select` returns make a listed page once summarised. */
  lemma LemmaPageItems(s: Store, q: GroupQuery, matches: (string, string) -> bool, ids: seq<Id>)
    requires Skip(PageOf(q), PageSizeOf(q)) >= 0
    requires ids == Select(NaturalOrder(s.groups, s.nextId), GroupFilter(s.groups, q, matches),
                           GroupOrder(SortByOf(q), s.groups), PageOf(q), PageSizeOf(q)).value.ids
    ensures forall id | id in ids :: id in s.groups
    ensures ListedPage(s, q, matches, Summaries(s.groups, ids))
  {
    LemmaIncreasingDistinct(NaturalOrder(s.groups, s.nextId));
    LemmaPageSummaries(s.groups, q, matches, ids);
    LemmaPageRanks(s, q, matches, ids);
  }

  /** The store after evaluating the badges of a page's groups. */
  lemma LemmaPageEvaluation(s: Store, now: int, ids: seq<Id>, data: seq<GroupSummary>)
    requires forall id | id in ids :: id in s.groups
    requires data == Summaries(s.groups, ids)
    ensures forall i | 0 <= i < |data| ::
      CheckEach(s, ids, now).groups[data[i].id] == CheckBadges(s, data[i].id, now).groups[data[i].id]
    ensures forall id | id in s.groups && id !in Ids(data) :: CheckEach(s, ids, now).groups[id] == s.groups[id]
  {
    forall i | 0 <= i < |data|
      ensures CheckEach(s, ids, now).groups[data[i].id] == CheckBadges(s, data[i].id, now).groups[data[i].id]
    {
      LemmaCheckEachPerGroup(s, ids, now, ids[i]);
    }
  }

  /** `mostBadge` sorts on a path no group document has, so every key is
      equal; MongoDB leaves their order open, and the model's tie rule lists
      the groups in creation order whatever badges they hold. */
  lemma LemmaMostBadgeListsInCreationOrder(s: Store, q: GroupQuery,
                                            matches: (string, string) -> bool, now: int)
    requires SortByOf(q) == "mostBadge"
    requires Skip(PageOf(q), PageSizeOf(q)) >= 0
    ensures var r := GetGroups(s, q, matches, now);
      && r.status == OK
      && forall i, j | 0 <= i < j < |r.body.value.data| ::
           r.body.value.data[i].id < r.body.value.data[j].id
  {
    var candidates := NaturalOrder(s.groups, s.nextId);
    var keep := GroupFilter(s.groups, q, matches);
    var key := GroupOrder(SortByOf(q), s.groups);
    assert forall x :: key(x) == 0;
    LemmaConstantKeySelect(candidates, keep, key, 0, PageOf(q), PageSizeOf(q));
  }

  // ---------------------------------------------------------------- update

  /** The body of `PUT /groups/:groupId`. */
  datatype UpdateGroupBody = UpdateGroupBody(
    password: Option<string>,
    name: Option<string>,
    imageUrl: Option<string>,
    isPublic: Option<bool>,
    introduction: Option<string>)

  /** The partial update: a falsy text field keeps the old value, an undefined
      `isPublic` keeps the old flag. */
  function MergeGroup(g: Group, body: UpdateGroupBody): Group {
    g.(name := Or(body.name, g.name),
       imageUrl := OrOptional(body.imageUrl, g.imageUrl),
       isPublic := Defined(body.isPublic, g.isPublic),
       introduction := OrOptional(body.introduction, g.introduction))
  }

  /** What an update promises about each field: a truthy text field (or a
      defined `isPublic`) replaces the old value, anything else keeps it, and
      likes, post counter, password and creation time never change. */
  predicate UpdatedFrom(before: Group, after: Group, body: UpdateGroupBody) {
    && (Truthy(body.name) ==> after.name == body.name.value)
    && (!Truthy(body.name) ==> after.name == before.name)
    && (Truthy(body.imageUrl) ==> after.imageUrl == body.imageUrl)
    && (!Truthy(body.imageUrl) ==> after.imageUrl == before.imageUrl)
    && (Truthy(body.introduction) ==> after.introduction == body.introduction)
    && (!Truthy(body.introduction) ==> after.introduction == before.introduction)
    && (body.isPublic.Some? ==> after.isPublic == body.isPublic.value)
    && (body.isPublic.None? ==> after.isPublic == before.isPublic)
    && after.likeCount == before.likeCount && after.postCount == before.postCount
    && after.password == before.password && after.createdAt == before.createdAt
  }

  /** The merge meets the field promise whatever badges are attached later. */
  lemma LemmaMergeGroupFields(g: Group, body: UpdateGroupBody, badges: seq<string>)
    ensures UpdatedFrom(g, MergeGroup(g, body).(badges := badges), body)
  {
  }

  /** The write of a successful update: the merged group is saved, then
      `checkBadges` runs on it. */
  function ApplyUpdate(s: Store, id: Id, body: UpdateGroupBody, now: int): (r: Store)
    requires id in s.groups
    ensures r.groups.Keys == s.groups.Keys
    ensures UpdatedFrom(s.groups[id], r.groups[id], body)
    ensures r.groups[id] == MergeGroup(s.groups[id], body).(badges := r.groups[id].badges)
    ensures s.groups[id].badges <= r.groups[id].badges
    ensures forall b :: b in r.groups[id].badges <==>
      b in s.groups[id].badges || b in Earned(s.groups[id], s.posts, id, now)
    ensures forall other | other in s.groups && other != id :: r.groups[other] == s.groups[other]
    ensures r.posts == s.posts && r.comments == s.comments && r.nextId == s.nextId
    ensures Valid(s) ==> Valid(r)
  {
    var merged := MergeGroup(s.groups[id], body);
    var saved := s.(groups := s.groups[id := merged]);
    var after := CheckBadges(saved, id, now);
    assert after.groups[id] == merged.(badges := after.groups[id].badges);
    LemmaEarnedReadsLikesAndAge(merged, s.groups[id], s.posts, id, now);
    LemmaMergeGroupFields(s.groups[id], body, after.groups[id].badges);
    LemmaSaveMergedValid(s, id, body);
    after
  }

  /** Saving a merged group keeps the store well formed. */
  lemma LemmaSaveMergedValid(s: Store, id: Id, body: UpdateGroupBody)
    requires id in s.groups
    ensures Valid(s) ==> Valid(s.(groups := s.groups[id := MergeGroup(s.groups[id], body)]))
  {
    if Valid(s) {
      var merged := MergeGroup(s.groups[id], body);
      assert GroupOk(merged);
      LemmaReplaceGroupValid(s, id, merged);
    }
  }

  /** `updateGroup`: 404 for a missing group, then 403 unless the stored
      password equals the supplied one (both may be undefined), with no write
      on either; otherwise the merged group is saved, `checkBadges` runs, and
      the saved document, with its id and the badges as before the
      evaluation, is sent back. */
  function UpdateGroup(s: Store, id: Id, body: UpdateGroupBody, now: int): (r: Reply<Saved<Group>>)
    ensures id !in s.groups ==> r.status == NotFound && r.store == s
    ensures id in s.groups && s.groups[id].password != body.password ==>
      r.status == Forbidden && r.store == s
    ensures r.status == OK <==> id in s.groups && s.groups[id].password == body.password
    ensures r.status == OK ==> r.store.groups.Keys == s.groups.Keys
    ensures r.status == OK ==>
      && var before := s.groups[id];
      && var after := r.store.groups[id];
      && UpdatedFrom(before, after, body)
      && before.badges <= after.badges
      && r.body == Some(Saved(id, after.(badges := before.badges)))
      && (forall other | other in s.groups && other != id :: r.store.groups[other] == s.groups[other])
      && r.store.posts == s.posts && r.store.comments == s.comments
    ensures r.status == OK ==>
      forall b :: b in r.store.groups[id].badges <==>
        b in s.groups[id].badges || b in Earned(s.groups[id], s.posts, id, now)
    ensures r.store.nextId == s.nextId
    ensures Valid(s) ==> Valid(r.store)
  {
    if id !in s.groups then Refuse(s, NotFound)
    else if s.groups[id].password != body.password then Refuse(s, Forbidden)
    else Reply(OK, Some(Saved(id, MergeGroup(s.groups[id], body))), ApplyUpdate(s, id, body, now))
  }

  /** Merging the same body into an already merged group changes nothing,
      whatever badges it gained in between. */
  lemma LemmaMergeGroupStable(g: Group, body: UpdateGroupBody, badges: seq<string>)
    ensures var m := MergeGroup(g, body).(badges := badges);
      MergeGroup(m, body) == m
  {
  }

  /** Applying an accepted update a second time leaves the store as it was
      after the first. */
  lemma LemmaApplyUpdateIdempotent(s: Store, id: Id, body: UpdateGroupBody, now: int)
    requires id in s.groups
    ensures var once := ApplyUpdate(s, id, body, now);
      ApplyUpdate(once, id, body, now) == once
  {
    var merged := MergeGroup(s.groups[id], body);
    var saved := s.(groups := s.groups[id := merged]);
    var once := ApplyUpdate(s, id, body, now);
    assert once == CheckBadges(saved, id, now);
    var badges := once.groups[id].badges;
    assert once.(groups := once.groups[id := MergeGroup(once.groups[id], body)]) == once by {
      assert once.groups[id] == merged.(badges := badges);
      LemmaMergeGroupStable(s.groups[id], body, badges);
    }
    assert CheckBadges(once, id, now) == once by {
      LemmaCheckBadgesIdempotent(saved, id, now);
    }
    assert ApplyUpdate(once, id, body, now)
        == CheckBadges(once.(groups := once.groups[id := MergeGroup(once.groups[id], body)]), id, now);
  }

  /** Sending the same update twice leaves the store as sending it once. */
  lemma LemmaUpdateGroupIdempotent(s: Store, id: Id, body: UpdateGroupBody, now: int)
    ensures var once := UpdateGroup(s, id, body, now).store;
      UpdateGroup(once, id, body, now).store == once
  {
    if id in s.groups && s.groups[id].password == body.password {
      var once := ApplyUpdate(s, id, body, now);
      assert once.groups[id].password == body.password;
      LemmaApplyUpdateIdempotent(s, id, body, now);
    }
  }

  // ---------------------------------------------------------------- delete

  /** `deleteGroup`: the same 404/403 gate as the update; on success exactly
      that group is removed. Its posts and their comments stay. */
  function DeleteGroup(s: Store, id: Id, password: Option<string>): (r: Reply<Ack>)
    ensures id !in s.groups ==> r.status == NotFound && r.store == s
    ensures id in s.groups && s.groups[id].password != password ==>
      r.status == Forbidden && r.store == s
    ensures r.status == OK <==> id in s.groups && s.groups[id].password == password
    ensures r.status == OK ==>
      && r.store.groups.Keys == s.groups.Keys - {id}
      && (forall other | other in r.store.groups :: r.store.groups[other] == s.groups[other])
      && r.store.posts == s.posts && r.store.comments == s.comments
    ensures r.store.nextId == s.nextId
    ensures Valid(s) ==> Valid(r.store)
  {
    if id !in s.groups then Refuse(s, NotFound)
    else if s.groups[id].password != password then Refuse(s, Forbidden)
    else Reply(OK, Some(Ack), s.(groups := s.groups - {id}))
  }

  // ---------------------------------------------------------------- detail

  /** `getGroupDetail`: 404 for a missing group; a private group needs the
      stored password (403 otherwise); a public one needs none. On success
      `checkBadges` runs and the projection of the document loaded before it
      is sent back. */
  function GetGroupDetail(s: Store, id: Id, password: Option<string>, now: int)
    : (r: Reply<GroupView>)
    ensures id !in s.groups ==> r.status == NotFound && r.store == s
    ensures r.status == OK <==>
      id in s.groups && (s.groups[id].isPublic || s.groups[id].password == password)
    ensures r.status != OK && id in s.groups ==> r.status == Forbidden && r.store == s
    ensures r.status == OK ==>
      && r.body == Some(View(id, s.groups[id]))
      && r.store == CheckBadges(s, id, now)
      && s.groups[id].badges <= r.store.groups[id].badges
    ensures Valid(s) ==> Valid(r.store)
  {
    if id !in s.groups then Refuse(s, NotFound)
    else if !s.groups[id].isPublic && s.groups[id].password != password then Refuse(s, Forbidden)
    else Reply(OK, Some(View(id, s.groups[id])), CheckBadges(s, id, now))
  }

  /** The detail reply shows the badges as stored after the request exactly
      when the evaluation wrote nothing: a badge earned by this very request
      is stored but not shown. */
  lemma LemmaDetailBadgesLag(s: Store, id: Id, password: Option<string>, now: int)
    requires GetGroupDetail(s, id, password, now).status == OK
    ensures var r := GetGroupDetail(s, id, password, now);
      r.body.value.badges == r.store.groups[id].badges <==> r.store == s
  {
  }

  /** Creating a group and reading it back returns the supplied fields, no
      badges and zeroed counters. */
  lemma LemmaCreateThenDetail(s: Store, body: CreateGroupBody, now: int)
    requires Valid(s) && CreateGroupBodyOk(body)
    ensures var c := CreateGroup(s, body, now);
      var d := GetGroupDetail(c.store, c.body.value.id, body.password, now);
      && d.status == OK
      && d.body == Some(GroupView(c.body.value.id, body.name.value, body.imageUrl,
                                  body.isPublic.value, 0, 0, now, body.introduction, []))
  {
  }

  // ---------------------------------------------------------- small gates

  /** `verifyGroupPassword`: 404 for a missing group; a public group passes
      with any password; a private one passes exactly on a match (401
      otherwise). Nothing is written. */
  function VerifyGroupPassword(s: Store, id: Id, password: Option<string>): (r: Reply<Ack>)
    ensures r.store == s
    ensures r.status == NotFound <==> id !in s.groups
    ensures r.status == OK <==>
      id in s.groups && (s.groups[id].isPublic || s.groups[id].password == password)
    ensures r.status == Unauthorized <==>
      id in s.groups && !s.groups[id].isPublic && s.groups[id].password != password
  {
    if id !in s.groups then Refuse(s, NotFound)
    else if !s.groups[id].isPublic then
      if s.groups[id].password == password then Reply(OK, Some(Ack), s)
      else Refuse(s, Unauthorized)
    else Reply(OK, Some(Ack), s)
  }

  /** `likeGroup`: 404 for a missing group; otherwise one more like, sent back
      as the new count, and nothing else changes. */
  function LikeGroup(s: Store, id: Id): (r: Reply<int>)
    ensures id !in s.groups ==> r.status == NotFound && r.store == s
    ensures id in s.groups ==>
      && r.status == OK
      && r.store.groups == s.groups[id := s.groups[id].(likeCount := s.groups[id].likeCount + 1)]
      && r.body == Some(s.groups[id].likeCount + 1)
      && r.store.posts == s.posts && r.store.comments == s.comments && r.store.nextId == s.nextId
    ensures Valid(s) ==> Valid(r.store)
  {
    if id !in s.groups then Refuse(s, NotFound)
    else
      var g := s.groups[id];
      var liked := g.(likeCount := g.likeCount + 1);
      Reply(OK, Some(liked.likeCount), s.(groups := s.groups[id := liked]))
  }

  /** `n` likes in a row. */
  function LikeGroupTimes(s: Store, id: Id, n: nat): Store
    decreases n
  {
    if n == 0 then s else LikeGroupTimes(LikeGroup(s, id).store, id, n - 1)
  }

  /** `n` likes, one request after another, raise the count by exactly `n`
      and change nothing else. */
  lemma {:induction false} LemmaLikesAccumulate(s: Store, id: Id, n: nat)
    requires id in s.groups
    ensures var t := LikeGroupTimes(s, id, n);
      && id in t.groups
      && t.groups == s.groups[id := s.groups[id].(likeCount := s.groups[id].likeCount + n)]
      && t.posts == s.posts && t.comments == s.comments && t.nextId == s.nextId
    decreases n
  {
    if n > 0 {
      var s1 := LikeGroup(s, id).store;
      LemmaLikesAccumulate(s1, id, n - 1);
    }
  }

  /** `checkGroupPublic`: the id and public flag, or 404; nothing is written. */
  function CheckGroupPublic(s: Store, id: Id): (r: Reply<PublicFlag>)
    ensures r.store == s
    ensures r.status == OK <==> id in s.groups
    ensures r.status != OK ==> r.status == NotFound
    ensures r.status == OK ==> r.body == Some(PublicFlag(id, s.groups[id].isPublic))
  {
    if id !in s.groups then Refuse(s, NotFound)
    else Reply(OK, Some(PublicFlag(id, s.groups[id].isPublic)), s)
  }
  /** The password check answers OK exactly for the requests the detail page
      serves. */
  lemma LemmaVerifyAgreesWithDetail(s: Store, id: Id, password: Option<string>, now: int)
    ensures VerifyGroupPassword(s, id, password).status == OK <==>
            GetGroupDetail(s, id, password, now).status == OK
  {
  }

  /** A group reported public passes the password check with any password;
      one reported private passes only with its own. */
  lemma LemmaPublicFlagDecidesCheck(s: Store, id: Id, password: Option<string>)
    requires CheckGroupPublic(s, id).status == OK
    ensures var flag := CheckGroupPublic(s, id).body.value;
      && (flag.isPublic ==> VerifyGroupPassword(s, id, password).status == OK)
      && (!flag.isPublic ==>
            (VerifyGroupPassword(s, id, password).status == OK <==> password == s.groups[id].password))
  {
  }

  /** A deleted group is gone for every later group request, while its posts
      remain stored. */
  lemma LemmaDeleteThenDetail(s: Store, id: Id, password: Option<string>, now: int,
                              later: Option<string>, body: UpdateGroupBody)
    requires DeleteGroup(s, id, password).status == OK
    ensures var t := DeleteGroup(s, id, password).store;
      && GetGroupDetail(t, id, later, now).status == NotFound
      && CheckGroupPublic(t, id).status == NotFound
      && VerifyGroupPassword(t, id, later).status == NotFound
      && UpdateGroup(t, id, body, now).status == NotFound
      && DeleteGroup(t, id, later).status == NotFound
      && LikeGroup(t, id).status == NotFound
      && t.posts == s.posts
  {
  }
}

=== FILE: js.dfy ===
/** The few JavaScript value rules the controllers lean on: truthiness of the
    request fields they test, and the `a || b` / `a !== undefined ? a : b`
    fallbacks the update handlers use for partial updates. */
module Js {
  import opened Wrappers

  /** A request string is truthy when it is present and not the empty string. */
  predicate Truthy(v: Option<string>) {
    v.Some? && v.value != ""
  }

  /** A timestamp is truthy when it is present and not zero. */
  predicate TruthyTime(v: Option<int>) {
    v.Some? && v.value != 0
  }

  /** `v || fallback` for a stored string the schema requires. */
  function Or(v: Option<string>, fallback: string): string {
    if Truthy(v) then v.value else fallback
  }

  /** `v || fallback` for a stored string the schema leaves optional. */
  function OrOptional(v: Option<string>, fallback: Option<string>): Option<string> {
    if Truthy(v) then v else fallback
  }

  /** `v || fallback` for a timestamp. */
  function OrTime(v: Option<int>, fallback: int): int {
    if TruthyTime(v) then v.value else fallback
  }

  /** `v || fallback` for an array: every array, the empty one included, is truthy. */
  function OrList(v: Option<seq<string>>, fallback: seq<string>): seq<string> {
    if v.Some? then v.value else fallback
  }

  /** `v !== undefined ? v : fallback` for a flag. */
  function Defined(v: Option<bool>, fallback: bool): bool {
    if v.Some? then v.value else fallback
  }
}

=== FILE: paging.dfy ===
/** The list query every list handler builds: filter, sort descending by one
    key, `skip((page - 1) * pageSize)`, `limit(parseInt(pageSize))`, plus
    `countDocuments` and `Math.ceil(totalItemCount / pageSize)`. */
module Paging {
  import opened Wrappers
  import opened Schema

  /** `(page - 1) * pageSize`, the number of documents skipped. */
  function Skip(page: int, pageSize: int): int {
    (page - 1) * pageSize
  }

  /** `Math.ceil(total / d)` for a non-zero divisor: the least integer at or
      above the exact quotient. */
  function CeilDiv(total: nat, d: int): (q: int)
    requires d != 0
    ensures d > 0 ==> (q - 1) * d < total <= q * d
    ensures d < 0 ==> q * d <= total < (q - 1) * d
  {
    if d > 0 then
      var q := (total + d - 1) / d;
      assert q * d + (total + d - 1) % d == total + d - 1;
      q
    else
      var e := -d;
      var f := total / e;
      assert f * e + total % e == total;
      assert (-f) * d == f * e;
      assert (-f - 1) * d == f * e + e;
      -f
  }

  /** `Math.ceil(totalItemCount / pageSize)`; None when the quotient is not a
      finite number (a zero page size), which JSON renders as null. */
  function TotalPages(total: nat, pageSize: int): (r: Option<int>)
    ensures r.None? <==> pageSize == 0
    ensures pageSize > 0 ==> r.Some? && (r.value - 1) * pageSize < total <= r.value * pageSize
    ensures pageSize < 0 ==> r.Some? && r.value * pageSize <= total < (r.value - 1) * pageSize
  {
    if pageSize == 0 then None else Some(CeilDiv(total, pageSize))
  }

  /** The store's reading of `limit(n)`: 0 means no limit, and a negative
      limit returns at most `-n` documents. */
  function Limit(pageSize: int): (r: Option<nat>)
    ensures r.None? <==> pageSize == 0
    ensures r.Some? ==> r.value == pageSize || r.value == -pageSize
  {
    if pageSize == 0 then None
    else if pageSize < 0 then Some(-pageSize)
    else Some(pageSize)
  }

  /** How many of `total` ordered documents `skip(skip).limit(limit)`
      returns. */
  function PageLength(total: nat, skip: nat, limit: Option<nat>): nat {
    if skip >= total then 0
    else if limit.Some? && limit.value < total - skip then limit.value
    else total - skip
  }

  /** `skip(skip).limit(limit)` over an ordered result. */
  function Slice<T>(xs: seq<T>, skip: nat, limit: Option<nat>): (r: seq<T>)
    ensures |r| == PageLength(|xs|, skip, limit)
    ensures forall i | 0 <= i < |r| :: skip + i < |xs| && r[i] == xs[skip + i]
  {
    var rest := if skip <= |xs| then xs[skip..] else [];
    if limit.Some? && limit.value < |rest| then rest[..limit.value] else rest
  }

  /** The documents of `xs` that pass `keep`, in their original order. */
  function Filter(xs: seq<Id>, keep: Id -> bool): (r: seq<Id>)
    ensures forall x :: x in r <==> x in xs && keep(x)
    ensures |r| <= |xs|
    ensures Distinct(xs) ==> Distinct(r)
    ensures Increasing(xs) ==> Increasing(r)
  {
    if xs == [] then []
    else
      var rest := Filter(xs[1..], keep);
      assert forall x :: x in xs <==> x == xs[0] || x in xs[1..];
      assert Increasing(xs) ==> forall j | 0 <= j < |rest| :: xs[0] < rest[j] by {
        if Increasing(xs) {
          forall j | 0 <= j < |rest|
            ensures xs[0] < rest[j]
          {
            assert rest[j] in xs[1..];
          }
        }
      }
      if keep(xs[0]) then [xs[0]] + rest else rest
  }

  predicate SortedDesc(xs: seq<Id>, key: Id -> int) {
    forall i, j | 0 <= i < j < |xs| :: key(xs[i]) >= key(xs[j])
  }

  /** Places `x` before the first element whose key does not exceed its own. */
  function Insert(x: Id, ys: seq<Id>, key: Id -> int): (r: seq<Id>)
    ensures multiset(r) == multiset(ys) + multiset{x}
    ensures forall z :: z in r <==> z == x || z in ys
    ensures r[0] == x || (|ys| > 0 && r[0] == ys[0])
  {
    if ys == [] || key(ys[0]) <= key(x) then [x] + ys
    else
      assert ys == [ys[0]] + ys[1..];
      [ys[0]] + Insert(x, ys[1..], key)
  }

  lemma {:induction false} LemmaInsertSorted(x: Id, ys: seq<Id>, key: Id -> int)
    requires SortedDesc(ys, key)
    ensures SortedDesc(Insert(x, ys, key), key)
  {
    if ys != [] && key(ys[0]) > key(x) {
      var rest := Insert(x, ys[1..], key);
      LemmaInsertSorted(x, ys[1..], key);
      assert key(ys[0]) >= key(rest[0]);
    }
  }

  lemma {:induction false} LemmaInsertDistinct(x: Id, ys: seq<Id>, key: Id -> int)
    requires x !in ys && Distinct(ys)
    ensures Distinct(Insert(x, ys, key))
  {
    if ys != [] && key(ys[0]) > key(x) {
      assert ys == [ys[0]] + ys[1..];
      LemmaInsertDistinct(x, ys[1..], key);
      var rest := Insert(x, ys[1..], key);
      assert ys[0] !in ys[1..];
      assert ys[0] !in rest;
      assert forall j | 0 <= j < |rest| :: rest[j] in rest;
    }
  }

  /** A stable sort by `key`, descending (a `sort({ field: -1 })`); documents
      with equal keys keep their natural order (`LemmaSortTiesAscending`). */
  function SortDesc(xs: seq<Id>, key: Id -> int): (r: seq<Id>)
    ensures multiset(r) == multiset(xs)
    ensures |r| == |xs|
    ensures forall z :: z in r <==> z in xs
    ensures SortedDesc(r, key)
    ensures Distinct(xs) ==> Distinct(r)
  {
    if xs == [] then []
    else
      assert xs == [xs[0]] + xs[1..];
      var rest := SortDesc(xs[1..], key);
      LemmaInsertSorted(xs[0], rest, key);
      if Distinct(xs) then
        LemmaInsertDistinct(xs[0], rest, key);
        Insert(xs[0], rest, key)
      else
        Insert(xs[0], rest, key)
  }

  /** A document whose key is at least the head's goes in front. */
  lemma LemmaInsertFront(x: Id, ys: seq<Id>, key: Id -> int)
    requires ys == [] || key(ys[0]) <= key(x)
    ensures Insert(x, ys, key) == [x] + ys
  {
  }

  /** Documents with equal keys stand in ascending id order, that is, in
      creation order. */
  predicate TiesAscending(xs: seq<Id>, key: Id -> int) {
    forall p, q | 0 <= p < q < |xs| && key(xs[p]) == key(xs[q]) :: xs[p] < xs[q]
  }

  /** Putting `y` in front keeps ties in creation order when `y` is older
      than every document behind it with the same key. */
  lemma LemmaConsTiesAscending(y: Id, rest: seq<Id>, key: Id -> int)
    requires TiesAscending(rest, key)
    requires forall z | z in rest && key(z) == key(y) :: y < z
    ensures TiesAscending([y] + rest, key)
  {
    var r := [y] + rest;
    forall p, q | 0 <= p < q < |r| && key(r[p]) == key(r[q])
      ensures r[p] < r[q]
    {
      if p == 0 {
        assert r[q] == rest[q - 1] && r[q] in rest;
      } else {
        assert r[p] == rest[p - 1] && r[q] == rest[q - 1];
      }
    }
  }

  /** The first document of a list with ties in creation order is older
      than every later one sharing its key, and the rest keeps the order. */
  lemma LemmaTiesAscendingTail(ys: seq<Id>, key: Id -> int)
    requires ys != [] && TiesAscending(ys, key)
    ensures TiesAscending(ys[1..], key)
    ensures forall z | z in ys[1..] && key(z) == key(ys[0]) :: ys[0] < z
  {
    var tail := ys[1..];
    forall p, q | 0 <= p < q < |tail| && key(tail[p]) == key(tail[q])
      ensures tail[p] < tail[q]
    {
      assert tail[p] == ys[p + 1] && tail[q] == ys[q + 1];
    }
    forall z | z in tail && key(z) == key(ys[0])
      ensures ys[0] < z
    {
      var k :| 0 <= k < |tail| && tail[k] == z;
      assert ys[k + 1] == z;
    }
  }

  /** Inserting a document older than all the others keeps ties in creation
      order: it lands before every document whose key equals its own. */
  lemma {:induction false} LemmaInsertTiesAscending(x: Id, ys: seq<Id>, key: Id -> int)
    requires TiesAscending(ys, key)
    requires forall y | y in ys :: x < y
    ensures TiesAscending(Insert(x, ys, key), key)
  {
    if ys != [] && key(ys[0]) > key(x) {
      var tail := ys[1..];
      LemmaTiesAscendingTail(ys, key);
      assert forall y | y in tail :: x < y by {
        assert forall y | y in tail :: y in ys;
      }
      LemmaInsertTiesAscending(x, tail, key);
      LemmaConsTiesAscending(ys[0], Insert(x, tail, key), key);
    } else {
      LemmaConsTiesAscending(x, ys, key);
    }
  }

  /** Sorting a list in creation order leaves every run of equal keys in
      creation order: the sort is stable for the lists the queries sort. */
  lemma {:induction false} LemmaSortTiesAscending(xs: seq<Id>, key: Id -> int)
    requires Increasing(xs)
    ensures TiesAscending(SortDesc(xs, key), key)
  {
    if xs != [] {
      var tail := xs[1..];
      assert Increasing(tail) by {
        forall i, j | 0 <= i < j < |tail|
          ensures tail[i] < tail[j]
        {
          assert tail[i] == xs[i + 1] && tail[j] == xs[j + 1];
        }
      }
      LemmaSortTiesAscending(tail, key);
      var rest := SortDesc(tail, key);
      forall y | y in rest
        ensures xs[0] < y
      {
        var k :| 0 <= k < |tail| && tail[k] == y;
        assert xs[k + 1] == y;
      }
      LemmaInsertTiesAscending(xs[0], rest, key);
    }
  }

  /** Sorting on a key every document lacks (all keys equal) leaves the
      natural order as it is. */
  lemma {:induction false} LemmaSortConstantKey(xs: seq<Id>, key: Id -> int, c: int)
    requires forall x :: key(x) == c
    ensures SortDesc(xs, key) == xs
  {
    if xs != [] {
      var rest := SortDesc(xs[1..], key);
      LemmaSortConstantKey(xs[1..], key, c);
      assert key(xs[0]) == c;
      assert rest != [] ==> key(rest[0]) == c;
      LemmaInsertFront(xs[0], rest, key);
      assert xs == [xs[0]] + xs[1..];
    }
  }

  /** The documents a query matches, in the order its sort returns them. */
  function Ranked(candidates: seq<Id>, keep: Id -> bool, key: Id -> int): (r: seq<Id>)
    ensures forall id :: id in r <==> id in candidates && keep(id)
    ensures |r| == |Filter(candidates, keep)|
    ensures SortedDesc(r, key)
    ensures Distinct(candidates) ==> Distinct(r)
  {
    SortDesc(Filter(candidates, keep), key)
  }

  /** One page of a list query. */
  datatype Listing = Listing(totalItemCount: nat, totalPages: Option<int>, ids: seq<Id>)

  /** `countDocuments(filter)` and `find(filter).sort(key desc).skip(..).limit(..)`
      over `candidates` in natural order; None when the skip is negative,
      which the store refuses. */
  function Select(candidates: seq<Id>, keep: Id -> bool, key: Id -> int,
                  page: int, pageSize: int): (r: Option<Listing>)
    ensures r.None? <==> Skip(page, pageSize) < 0
    ensures r.Some? ==>
      && r.value.totalItemCount == |Filter(candidates, keep)|
      && r.value.totalPages == TotalPages(r.value.totalItemCount, pageSize)
      && (forall id | id in r.value.ids :: id in candidates && keep(id))
      && SortedDesc(r.value.ids, key)
      && (pageSize != 0 ==> |r.value.ids| <= if pageSize < 0 then -pageSize else pageSize)
      && (Distinct(candidates) ==> Distinct(r.value.ids))
    ensures r.Some? ==>
      && var ranked := Ranked(candidates, keep, key);
      && var skip := Skip(page, pageSize);
      && |r.value.ids| == PageLength(|ranked|, skip, Limit(pageSize))
      && (forall i | 0 <= i < |r.value.ids| ::
            skip + i < |ranked| && r.value.ids[i] == ranked[skip + i])
  {
    var skip := Skip(page, pageSize);
    if skip < 0 then None
    else
      var matching := Filter(candidates, keep);
      var ordered := Ranked(candidates, keep, key);
      var ids := Slice(ordered, skip, Limit(pageSize));
      assert forall id | id in ids :: id in ordered;
      Some(Listing(|matching|, TotalPages(|matching|, pageSize), ids))
  }

  lemma LemmaMulMono(a: int, b: int, c: int)
    requires a <= b && c >= 0
    ensures a * c <= b * c
  {
  }

  /** A page index is within the page count exactly when its skip is below the total. */
  lemma LemmaSkipBelowTotal(total: nat, page: int, pageSize: int, q: int)
    requires page >= 1 && pageSize > 0
    requires (q - 1) * pageSize < total <= q * pageSize
    ensures Skip(page, pageSize) < total <==> page <= q
  {
    if page <= q {
      LemmaMulMono(page - 1, q - 1, pageSize);
    } else {
      LemmaMulMono(q, page - 1, pageSize);
    }
  }

  /** A page holds documents exactly when its skip is below their count. */
  lemma LemmaSliceNonEmpty<T>(xs: seq<T>, skip: nat, limit: nat)
    requires limit > 0
    ensures |Slice(xs, skip, Some(limit))| > 0 <==> skip < |xs|
  {
  }

  /** With a positive page size, page `page >= 1` holds documents exactly when
      it is not past the last page. */
  lemma LemmaPageNonEmptyIff(candidates: seq<Id>, keep: Id -> bool, key: Id -> int,
                             page: int, pageSize: int)
    requires page >= 1 && pageSize > 0
    ensures var r := Select(candidates, keep, key, page, pageSize);
      r.Some? && r.value.totalPages.Some? &&
      (|r.value.ids| > 0 <==> page <= r.value.totalPages.value)
  {
    var matching := Filter(candidates, keep);
    var ordered := SortDesc(matching, key);
    var skip := Skip(page, pageSize);
    LemmaMulMono(0, page - 1, pageSize);
    var total := |matching|;
    var q := CeilDiv(total, pageSize);
    var r := Select(candidates, keep, key, page, pageSize);
    assert r.value.ids == Slice(ordered, skip, Some(pageSize));
    LemmaSliceNonEmpty(ordered, skip, pageSize);
    LemmaSkipBelowTotal(total, page, pageSize, q);
  }

  /** `j / d` is the one quotient `q` with `q * d <= j < q * d + d`. */
  lemma LemmaQuotientUnique(j: nat, d: int, q: int)
    requires d > 0
    ensures q * d <= j < q * d + d <==> q == j / d
  {
    var e := j / d;
    assert e * d + j % d == j;
    if q < e {
      LemmaMulMono(q + 1, e, d);
    } else if q > e {
      LemmaMulMono(e + 1, q, d);
    }
  }

  /** The page holding the `j`-th of `total` matches is within the page count. */
  lemma LemmaQuotientBelowPages(total: nat, d: int, j: nat)
    requires d > 0 && j < total
    ensures 1 <= j / d + 1 <= CeilDiv(total, d)
  {
    var last := CeilDiv(total, d);
    var e := j / d;
    assert e * d + j % d == j;
    if e + 1 > last {
      LemmaMulMono(last, e, d);
    }
  }

  /** In a sequence without repeats, the window starting at `skip` holds the
      `j`-th element exactly when `j` lies inside the window. */
  lemma LemmaWindowMember(ranked: seq<Id>, ids: seq<Id>, skip: nat, j: nat)
    requires Distinct(ranked) && j < |ranked|
    requires forall i | 0 <= i < |ids| :: skip + i < |ranked| && ids[i] == ranked[skip + i]
    ensures ranked[j] in ids <==> skip <= j < skip + |ids|
  {
    if ranked[j] in ids {
      var i :| 0 <= i < |ids| && ids[i] == ranked[j];
      assert ranked[skip + i] == ranked[j];
    }
    if skip <= j < skip + |ids| {
      assert ids[j - skip] == ranked[j];
    }
  }

  /** Where `id` stands in `xs`. */
  function IndexOf(xs: seq<Id>, id: Id): (i: nat)
    requires id in xs
    ensures i < |xs| && xs[i] == id
  {
    if xs[0] == id then 0 else 1 + IndexOf(xs[1..], id)
  }

  /** The page a matching document is listed on for a positive page size. */
  function HomePage(candidates: seq<Id>, keep: Id -> bool, key: Id -> int, pageSize: int, id: Id): int
    requires pageSize > 0 && id in candidates && keep(id)
  {
    IndexOf(Ranked(candidates, keep, key), id) / pageSize + 1
  }

  /** A document stands on a page exactly when its rank falls in the page's
      window of the ranked matches. */
  lemma LemmaOnPageIffInWindow(candidates: seq<Id>, keep: Id -> bool, key: Id -> int,
                               page: int, pageSize: int, j: nat)
    requires pageSize > 0 && page >= 1 && Distinct(candidates)
    requires j < |Ranked(candidates, keep, key)|
    ensures var r := Select(candidates, keep, key, page, pageSize);
      && r.Some?
      && (Ranked(candidates, keep, key)[j] in r.value.ids
          <==> (page - 1) * pageSize <= j < (page - 1) * pageSize + pageSize)
  {
    var ranked := Ranked(candidates, keep, key);
    LemmaMulMono(0, page - 1, pageSize);
    var skip := Skip(page, pageSize);
    var ids := Select(candidates, keep, key, page, pageSize).value.ids;
    assert Limit(pageSize) == Some(pageSize);
    LemmaWindowMember(ranked, ids, skip, j);
  }

  /** The `j`-th ranked match stands on page `page` exactly when `page - 1`
      is `j` divided by the page size. */
  lemma LemmaOnPageIffQuotient(candidates: seq<Id>, keep: Id -> bool, key: Id -> int,
                               page: int, pageSize: int, j: nat)
    requires pageSize > 0 && page >= 1 && Distinct(candidates)
    requires j < |Ranked(candidates, keep, key)|
    ensures var r := Select(candidates, keep, key, page, pageSize);
      && r.Some?
      && (Ranked(candidates, keep, key)[j] in r.value.ids <==> page == j / pageSize + 1)
  {
    LemmaOnPageIffInWindow(candidates, keep, key, page, pageSize, j);
    LemmaQuotientUnique(j, pageSize, page - 1);
  }

  /** A matching document's page is a real page within the page count. */
  lemma LemmaHomePageInRange(candidates: seq<Id>, keep: Id -> bool, key: Id -> int,
                             pageSize: int, id: Id)
    requires pageSize > 0 && id in candidates && keep(id)
    ensures var home := HomePage(candidates, keep, key, pageSize, id);
      var r := Select(candidates, keep, key, home, pageSize);
      && 1 <= home
      && r.Some? && r.value.totalPages.Some? && home <= r.value.totalPages.value
  {
    var ranked := Ranked(candidates, keep, key);
    var j := IndexOf(ranked, id);
    var home := j / pageSize + 1;
    LemmaQuotientBelowPages(|ranked|, pageSize, j);
    LemmaMulMono(0, home - 1, pageSize);
    assert Skip(home, pageSize) >= 0;
    assert TotalPages(|ranked|, pageSize) == Some(CeilDiv(|ranked|, pageSize));
  }

  /** From page one on, a matching document is on a page exactly when that
      page is its own. */
  lemma LemmaOnlyOnHomePageFromOne(candidates: seq<Id>, keep: Id -> bool, key: Id -> int,
                                   page: int, pageSize: int, id: Id)
    requires pageSize > 0 && page >= 1 && Distinct(candidates) && id in candidates && keep(id)
    ensures var r := Select(candidates, keep, key, page, pageSize);
      (r.Some? && id in r.value.ids) <==> page == HomePage(candidates, keep, key, pageSize, id)
  {
    var j := IndexOf(Ranked(candidates, keep, key), id);
    LemmaOnPageIffQuotient(candidates, keep, key, page, pageSize, j);
  }

  /** Pages below one list nothing, and no document's own page is below one. */
  lemma LemmaNothingBelowPageOne(candidates: seq<Id>, keep: Id -> bool, key: Id -> int,
                                 page: int, pageSize: int, id: Id)
    requires pageSize > 0 && page < 1 && id in candidates && keep(id)
    ensures Select(candidates, keep, key, page, pageSize).None?
    ensures HomePage(candidates, keep, key, pageSize, id) >= 1
  {
    assert Skip(page, pageSize) < 0 by {
      LemmaMulMono(page - 1, -1, pageSize);
    }
    var ranked := Ranked(candidates, keep, key);
    LemmaQuotientBelowPages(|ranked|, pageSize, IndexOf(ranked, id));
  }

  /** A matching document is on a page exactly when that page is its own. */
  lemma LemmaOnlyOnHomePage(candidates: seq<Id>, keep: Id -> bool, key: Id -> int,
                            page: int, pageSize: int, id: Id)
    requires pageSize > 0 && Distinct(candidates) && id in candidates && keep(id)
    ensures var r := Select(candidates, keep, key, page, pageSize);
      (r.Some? && id in r.value.ids) <==> page == HomePage(candidates, keep, key, pageSize, id)
  {
    if page >= 1 {
      LemmaOnlyOnHomePageFromOne(candidates, keep, key, page, pageSize, id);
    } else {
      LemmaNothingBelowPageOne(candidates, keep, key, page, pageSize, id);
    }
  }

  /** For a positive page size every matching document is listed on exactly
      one page, and that page is within the reported page count. */
  lemma LemmaMatchOnOnePage(candidates: seq<Id>, keep: Id -> bool, key: Id -> int,
                            page: int, pageSize: int, id: Id)
    requires pageSize > 0 && Distinct(candidates) && id in candidates && keep(id)
    ensures var home := HomePage(candidates, keep, key, pageSize, id);
      var r := Select(candidates, keep, key, home, pageSize);
      && 1 <= home
      && r.Some? && r.value.totalPages.Some? && home <= r.value.totalPages.value
    ensures var r := Select(candidates, keep, key, page, pageSize);
      (r.Some? && id in r.value.ids) <==> page == HomePage(candidates, keep, key, pageSize, id)
  {
    LemmaHomePageInRange(candidates, keep, key, pageSize, id);
    LemmaOnlyOnHomePage(candidates, keep, key, page, pageSize, id);
  }

  /** Twelve matches at five per page: three pages, the second full, the
      third holding the last two. */
  lemma LemmaTwelveAtFive(candidates: seq<Id>, keep: Id -> bool, key: Id -> int)
    requires |Filter(candidates, keep)| == 12
    ensures var p2 := Select(candidates, keep, key, 2, 5);
      var p3 := Select(candidates, keep, key, 3, 5);
      && p2.Some? && p3.Some?
      && p2.value.totalPages == Some(3)
      && |p2.value.ids| == 5 && |p3.value.ids| == 2
  {
    assert CeilDiv(12, 5) == 3;
  }

  /** A `$regex` filter on one string field. The pattern language is left
      abstract (`matches`), except that the empty pattern matches every
      string. */
  predicate KeywordHit(matches: (string, string) -> bool, keyword: string, field: string) {
    keyword == "" || matches(keyword, field)
  }

  /** The body of a paginated list response. */
  datatype Page<T> = Page(currentPage: int, totalPages: Option<int>, totalItemCount: nat, data: seq<T>)

  function Elems(xs: seq<Id>): set<Id> {
    set x | x in xs
  }

  /** A sequence without repeats has as many elements as its set. */
  lemma {:induction false} LemmaDistinctCount(xs: seq<Id>)
    requires Distinct(xs)
    ensures |Elems(xs)| == |xs|
  {
    if xs != [] {
      assert Distinct(xs[1..]);
      LemmaDistinctCount(xs[1..]);
      var rest := Elems(xs[1..]);
      assert Elems(xs) == {xs[0]} + rest;
      assert xs[0] !in rest;
      assert |{xs[0]} + rest| == 1 + |rest|;
    }
  }

  /** Ordering on a key every document lacks lists the matching documents in
      natural order, whatever else they hold. */
  lemma LemmaConstantKeySelect(candidates: seq<Id>, keep: Id -> bool, key: Id -> int, c: int,
                               page: int, pageSize: int)
    requires Increasing(candidates)
    requires forall x :: key(x) == c
    requires Skip(page, pageSize) >= 0
    ensures var r := Select(candidates, keep, key, page, pageSize);
      r.Some? && Increasing(r.value.ids)
  {
    LemmaSortConstantKey(Filter(candidates, keep), key, c);
  }
}

=== FILE: posts.dfy ===
/** The post handlers of controllers/postController.js as transitions of the
    store. The body field that gates update and delete is `postPassword`; the
    one that `verifyPostPassword` reads is `password`. */
module Posts {
  import opened Wrappers
  import opened Js
  import opened Schema
  import opened Storage
  import opened Paging

  /** The post projection of the list handler (no password, no content).
      `commentCount` reads `comment_count`, a path the schema does not have
      (it stores `comments_count`), so it is always undefined. */
  datatype PostSummary = PostSummary(
    id: Id,
    nickname: string,
    title: string,
    imageUrl: Option<string>,
    tags: seq<string>,
    location: Option<string>,
    moment: int,
    isPublic: bool,
    likeCount: int,
    commentCount: Option<int>,
    createdAt: int)

  /** The post projection of the detail and update handlers. */
  datatype PostDetail = PostDetail(
    id: Id,
    groupId: Id,
    nickname: string,
    title: string,
    content: string,
    imageUrl: Option<string>,
    tags: seq<string>,
    location: Option<string>,
    moment: int,
    isPublic: bool,
    likeCount: int,
    commentCount: Option<int>,
    createdAt: int)

  function SummaryOf(id: Id, p: Post): PostSummary {
    PostSummary(id, p.nickname, p.title, p.image, p.tags, p.location, p.memoryTime, p.isPublic,
                p.likes, None, p.createdAt)
  }

  function DetailOf(id: Id, p: Post): PostDetail {
    PostDetail(id, p.groupId, p.nickname, p.title, p.content, p.image, p.tags, p.location,
               p.memoryTime, p.isPublic, p.likes, None, p.createdAt)
  }

  /** No post projection carries the stored comment counter. */
  lemma LemmaCommentCountNeverSent(id: Id, p: Post)
    ensures SummaryOf(id, p).commentCount.None? && DetailOf(id, p).commentCount.None?
  {
  }

  // ---------------------------------------------------------------- create

  /** The body of `POST /groups/:groupId/posts`. */
  datatype CreatePostBody = CreatePostBody(
    nickname: Option<string>,
    title: Option<string>,
    image: Option<string>,
    content: Option<string>,
    tags: Option<seq<string>>,
    location: Option<string>,
    memoryTime: Option<int>,
    isPublic: Option<bool>,
    password: Option<string>)

  /** The required post fields are all present and non-empty, so the save
      passes schema validation. */
  predicate CreatePostBodyOk(b: CreatePostBody) {
    Truthy(b.nickname) && Truthy(b.title) && Truthy(b.content) && Truthy(b.password)
  }

  /** `createPost`: 404 and no write when the group is missing; a failed
      schema validation ends in the handler's 500 with no write; otherwise the
      post is stored under a fresh id and sent back whole. The group's
      counter is not touched: the handler increments `posts_count`, a path the
      schema does not have (it stores `postCount`), so the save writes
      nothing. */
  function CreatePost(s: Store, groupId: Id, body: CreatePostBody, now: int)
    : (r: Reply<Saved<Post>>)
    ensures groupId !in s.groups ==> r.status == NotFound && r.store == s
    ensures r.status == Created <==> groupId in s.groups && CreatePostBodyOk(body)
    ensures groupId in s.groups && !CreatePostBodyOk(body) ==>
      r.status == ServerError && r.store == s
    ensures r.status == Created ==>
      && r.body.Some?
      && var id := r.body.value.id;
      && var p := r.body.value.doc;
      && id == s.nextId
      && p.groupId == groupId
      && p.nickname == body.nickname.value && p.title == body.title.value
      && p.content == body.content.value && p.password == body.password.value
      && p.image == body.image && p.location == body.location
      && (body.tags.Some? ==> p.tags == body.tags.value)
      && (body.tags.None? ==> p.tags == [])
      && (body.memoryTime.Some? ==> p.memoryTime == body.memoryTime.value)
      && (body.memoryTime.None? ==> p.memoryTime == now)
      && (body.isPublic.Some? ==> p.isPublic == body.isPublic.value)
      && (body.isPublic.None? ==> p.isPublic)
      && p.likes == 0 && p.commentsCount == 0 && p.createdAt == now
      && r.store.posts == s.posts[id := p]
      && r.store.groups == s.groups && r.store.comments == s.comments
      && r.store.nextId > id
      && (Valid(s) ==> id !in s.posts)
    ensures Valid(s) ==> Valid(r.store)
  {
    if groupId !in s.groups then Refuse(s, NotFound)
    else
      var p := NewPost(groupId, body.nickname.GetOr(""), body.title.GetOr(""), body.image,
                       body.content.GetOr(""), body.tags, body.location, body.memoryTime,
                       body.isPublic, body.password.GetOr(""), now);
      if !PostSavable(p) then Refuse(s, ServerError)
      else
        var id := s.nextId;
        Reply(Created, Some(Saved(id, p)), s.(posts := s.posts[id := p], nextId := id + 1))
  }

  /** Creating posts never moves the group's `postCount`, whatever the number
      of posts the group holds. */
  lemma LemmaCreatePostKeepsPostCount(s: Store, groupId: Id, body: CreatePostBody, now: int)
    requires groupId in s.groups
    ensures var r := CreatePost(s, groupId, body, now);
      groupId in r.store.groups && r.store.groups[groupId].postCount == s.groups[groupId].postCount
  {
  }

  // ------------------------------------------------------------------ list

  /** The query string of `GET /groups/:groupId/posts`; `isPublic` is kept as
      the raw string the handler compares with `'true'`. */
  datatype PostQuery = PostQuery(
    page: Option<int>,
    pageSize: Option<int>,
    sortBy: Option<string>,
    keyword: Option<string>,
    isPublic: Option<string>)

  function PostPageOf(q: PostQuery): int { q.page.GetOr(1) }
  function PostPageSizeOf(q: PostQuery): int { q.pageSize.GetOr(10) }
  function PostSortByOf(q: PostQuery): string { q.sortBy.GetOr("latest") }

  /** The list filter: the post belongs to the group; when `isPublic` is
      given, `is_public` equals `isPublic === 'true'`; when the keyword is
      truthy, it matches the title or one of the tags. */
  predicate PostListed(posts: map<Id, Post>, groupId: Id, q: PostQuery,
                       matches: (string, string) -> bool, id: Id) {
    && id in posts
    && posts[id].groupId == groupId
    && (q.isPublic.None? || posts[id].isPublic == (q.isPublic.value == "true"))
    && (!Truthy(q.keyword)
        || matches(q.keyword.value, posts[id].title)
        || (exists t | t in posts[id].tags :: matches(q.keyword.value, t)))
  }

  /** The sort field for `sortBy`. `comment_count` is not a stored path, so
      under `mostCommented` every post has the same (missing) key. */
  function PostSortKey(sortBy: string, posts: map<Id, Post>, id: Id): int {
    if sortBy == "mostCommented" || id !in posts then 0
    else if sortBy == "mostLiked" then posts[id].likes
    else posts[id].createdAt
  }

  function PostFilter(posts: map<Id, Post>, groupId: Id, q: PostQuery,
                      matches: (string, string) -> bool): Id -> bool
  {
    (id: Id) => PostListed(posts, groupId, q, matches, id)
  }

  function PostOrder(sortBy: string, posts: map<Id, Post>): Id -> int {
    (id: Id) => PostSortKey(sortBy, posts, id)
  }

  function Summaries(posts: map<Id, Post>, ids: seq<Id>): (r: seq<PostSummary>)
    requires forall id | id in ids :: id in posts
    ensures |r| == |ids|
    ensures forall i | 0 <= i < |ids| :: r[i] == SummaryOf(ids[i], posts[ids[i]])
  {
    seq(|ids|, i requires 0 <= i < |ids| => SummaryOf(ids[i], posts[ids[i]]))
  }

  /** The posts the list filter selects. */
  function MatchingPosts(s: Store, groupId: Id, q: PostQuery,
                         matches: (string, string) -> bool): set<Id> {
    set id | id in s.posts && PostListed(s.posts, groupId, q, matches, id)
  }

  /** Every post the list filter selects, in the order of the sort. */
  function RankedPosts(s: Store, groupId: Id, q: PostQuery,
                       matches: (string, string) -> bool): (r: seq<Id>)
    ensures forall id: Id :: id in r <==> id < s.nextId && PostListed(s.posts, groupId, q, matches, id)
    ensures forall i, j | 0 <= i < j < |r| ::
      PostSortKey(PostSortByOf(q), s.posts, r[i]) >= PostSortKey(PostSortByOf(q), s.posts, r[j])
    ensures Distinct(r)
  {
    var candidates := NaturalOrder(s.posts, s.nextId);
    LemmaIncreasingDistinct(candidates);
    Ranked(candidates, PostFilter(s.posts, groupId, q, matches), PostOrder(PostSortByOf(q), s.posts))
  }

  /** What a page of the post list holds: summaries of listed posts of the
      group, in sort order and without repeats, at most a page of them;
      precisely the sorted matches from rank `skip` on, as many as `limit`
      lets through. */
  predicate ListedPage(s: Store, groupId: Id, q: PostQuery, matches: (string, string) -> bool,
                       data: seq<PostSummary>)
    requires Skip(PostPageOf(q), PostPageSizeOf(q)) >= 0
  {
    var ranked := RankedPosts(s, groupId, q, matches);
    var skip := Skip(PostPageOf(q), PostPageSizeOf(q));
    && (forall i | 0 <= i < |data| ::
          && data[i].id in s.posts
          && s.posts[data[i].id].groupId == groupId
          && PostListed(s.posts, groupId, q, matches, data[i].id)
          && data[i] == SummaryOf(data[i].id, s.posts[data[i].id]))
    && (forall i, j | 0 <= i < j < |data| ::
          PostSortKey(PostSortByOf(q), s.posts, data[i].id)
          >= PostSortKey(PostSortByOf(q), s.posts, data[j].id))
    && (forall i, j | 0 <= i < j < |data| :: data[i].id != data[j].id)
    && (PostPageSizeOf(q) > 0 ==> |data| <= PostPageSizeOf(q))
    && |data| == PageLength(|ranked|, skip, Limit(PostPageSizeOf(q)))
    && (forall i | 0 <= i < |data| :: skip + i < |ranked| && data[i].id == ranked[skip + i])
  }

  lemma LemmaPostCount(s: Store, groupId: Id, q: PostQuery, matches: (string, string) -> bool,
                       candidates: seq<Id>, keep: Id -> bool)
    requires candidates == NaturalOrder(s.posts, s.nextId)
    requires forall id :: keep(id) == PostListed(s.posts, groupId, q, matches, id)
    ensures Valid(s) ==> |Filter(candidates, keep)| == |MatchingPosts(s, groupId, q, matches)|
  {
    if Valid(s) {
      var matching := Filter(candidates, keep);
      assert Distinct(matching) by {
        LemmaIncreasingDistinct(candidates);
      }
      LemmaDistinctCount(matching);
      assert Elems(matching) == MatchingPosts(s, groupId, q, matches) by {
        assert forall x :: x in Elems(matching) <==> x in matching;
      }
    }
  }

  /** Ids of listed posts in sort order and without repeats, summarised in
      the same order. */
  lemma LemmaPostPageSummaries(posts: map<Id, Post>, groupId: Id, q: PostQuery,
                               matches: (string, string) -> bool, ids: seq<Id>)
    requires forall id | id in ids :: PostListed(posts, groupId, q, matches, id)
    requires SortedDesc(ids, PostOrder(PostSortByOf(q), posts))
    requires Distinct(ids)
    ensures forall id | id in ids :: id in posts
    ensures var data := Summaries(posts, ids);
      && (forall i | 0 <= i < |data| ::
            && data[i].id == ids[i]
            && data[i].id in posts
            && posts[data[i].id].groupId == groupId
            && PostListed(posts, groupId, q, matches, data[i].id)
            && data[i] == SummaryOf(data[i].id, posts[data[i].id]))
      && (forall i, j | 0 <= i < j < |data| ::
            PostSortKey(PostSortByOf(q), posts, data[i].id)
            >= PostSortKey(PostSortByOf(q), posts, data[j].id))
      && (forall i, j | 0 <= i < j < |data| :: data[i].id != data[j].id)
  {
    var data := Summaries(posts, ids);
    forall i | 0 <= i < |ids|
      ensures data[i].id == ids[i] && PostListed(posts, groupId, q, matches, ids[i])
    {
      assert ids[i] in ids;
    }
  }

  /** The ids `Select` returns stand at the page's ranks of the sorted matches. */
  lemma LemmaPostPageRanks(s: Store, groupId: Id, q: PostQuery,
                           matches: (string, string) -> bool, ids: seq<Id>)
    requires Skip(PostPageOf(q), PostPageSizeOf(q)) >= 0
    requires ids == Select(NaturalOrder(s.posts, s.nextId), PostFilter(s.posts, groupId, q, matches),
                           PostOrder(PostSortByOf(q), s.posts), PostPageOf(q), PostPageSizeOf(q)).value.ids
    ensures var ranked := RankedPosts(s, groupId, q, matches);
      var skip := Skip(PostPageOf(q), PostPageSizeOf(q));
      && |ids| == PageLength(|ranked|, skip, Limit(PostPageSizeOf(q)))
      && (forall i | 0 <= i < |ids| :: skip + i < |ranked| && ids[i] == ranked[skip + i])
  {
  }

  /** The ids `Select` returns make a listed page once summarised. */
  lemma LemmaPostPageItems(s: Store, groupId: Id, q: PostQuery,
                           matches: (string, string) -> bool, ids: seq<Id>)
    requires Skip(PostPageOf(q), PostPageSizeOf(q)) >= 0
    requires ids == Select(NaturalOrder(s.posts, s.nextId), PostFilter(s.posts, groupId, q, matches),
                           PostOrder(PostSortByOf(q), s.posts), PostPageOf(q), PostPageSizeOf(q)).value.ids
    ensures forall id | id in ids :: id in s.posts
    ensures ListedPage(s, groupId, q, matches, Summaries(s.posts, ids))
  {
    LemmaIncreasingDistinct(NaturalOrder(s.posts, s.nextId));
    LemmaPostPageSummaries(s.posts, groupId, q, matches, ids);
    LemmaPostPageRanks(s, groupId, q, matches, ids);
  }

  /** `getPostsByGroupId`: only posts of `groupId` (a missing group simply
      lists nothing), filtered, sorted and paged; the store is only read. A
      negative skip is refused by the store (400). */
  function GetPostsByGroupId(s: Store, groupId: Id, q: PostQuery,
                             matches: (string, string) -> bool): (r: Reply<Page<PostSummary>>)
    ensures r.store == s
    ensures r.status == BadRequest <==> Skip(PostPageOf(q), PostPageSizeOf(q)) < 0
    ensures r.status != BadRequest ==> r.status == OK
    ensures r.status == OK ==>
      && r.body.Some?
      && var p := r.body.value;
      && p.currentPage == PostPageOf(q)
      && p.totalPages == TotalPages(p.totalItemCount, PostPageSizeOf(q))
      && (Valid(s) ==> p.totalItemCount == |MatchingPosts(s, groupId, q, matches)|)
      && ListedPage(s, groupId, q, matches, p.data)
  {
    var page := PostPageOf(q);
    var pageSize := PostPageSizeOf(q);
    var candidates := NaturalOrder(s.posts, s.nextId);
    var keep := PostFilter(s.posts, groupId, q, matches);
    var key := PostOrder(PostSortByOf(q), s.posts);
    var listing := Select(candidates, keep, key, page, pageSize);
    if listing.None? then Refuse(s, BadRequest)
    else
      var ids := listing.value.ids;
      LemmaIncreasingDistinct(candidates);
      LemmaPostCount(s, groupId, q, matches, candidates, keep);
      LemmaPostPageItems(s, groupId, q, matches, ids);
      Reply(OK, Some(Page(page, listing.value.totalPages, listing.value.totalItemCount,
                          Summaries(s.posts, ids))), s)
  }

  /** `mostCommented` sorts on a path no post document has, so every key is
      equal; MongoDB leaves their order open, and the model's tie rule lists
      the posts in creation order whatever their comment counters hold. */
  lemma LemmaMostCommentedListsInCreationOrder(s: Store, groupId: Id, q: PostQuery,
                                               matches: (string, string) -> bool)
    requires PostSortByOf(q) == "mostCommented"
    requires Skip(PostPageOf(q), PostPageSizeOf(q)) >= 0
    ensures var r := GetPostsByGroupId(s, groupId, q, matches);
      && r.status == OK
      && forall i, j | 0 <= i < j < |r.body.value.data| ::
           r.body.value.data[i].id < r.body.value.data[j].id
  {
    var key := PostOrder(PostSortByOf(q), s.posts);
    assert forall x :: key(x) == 0;
    LemmaConstantKeySelect(NaturalOrder(s.posts, s.nextId), PostFilter(s.posts, groupId, q, matches),
                           key, 0, PostPageOf(q), PostPageSizeOf(q));
  }

  // ---------------------------------------------------------------- update

  /** The body of `PUT /posts/:postId`. */
  datatype UpdatePostBody = UpdatePostBody(
    nickname: Option<string>,
    title: Option<string>,
    content: Option<string>,
    postPassword: Option<string>,
    imageUrl: Option<string>,
    tags: Option<seq<string>>,
    location: Option<string>,
    moment: Option<int>,
    isPublic: Option<bool>)

  /** The partial update: a falsy field keeps the old value (an array, even an
      empty one, is truthy), an undefined `isPublic` keeps the old flag. */
  function MergePost(p: Post, b: UpdatePostBody): Post {
    p.(nickname := Or(b.nickname, p.nickname),
       title := Or(b.title, p.title),
       content := Or(b.content, p.content),
       image := OrOptional(b.imageUrl, p.image),
       tags := OrList(b.tags, p.tags),
       location := OrOptional(b.location, p.location),
       memoryTime := OrTime(b.moment, p.memoryTime),
       isPublic := Defined(b.isPublic, p.isPublic))
  }

  /** What an update promises about each field: a truthy field (any array
      for `tags`, a defined `isPublic`) replaces the old value, anything else
      keeps it, and group, likes, password, comment counter and creation time
      never change. */
  predicate UpdatedFrom(before: Post, after: Post, body: UpdatePostBody) {
    && (Truthy(body.nickname) ==> after.nickname == body.nickname.value)
    && (!Truthy(body.nickname) ==> after.nickname == before.nickname)
    && (Truthy(body.title) ==> after.title == body.title.value)
    && (!Truthy(body.title) ==> after.title == before.title)
    && (Truthy(body.content) ==> after.content == body.content.value)
    && (!Truthy(body.content) ==> after.content == before.content)
    && (Truthy(body.imageUrl) ==> after.image == body.imageUrl)
    && (!Truthy(body.imageUrl) ==> after.image == before.image)
    && (body.tags.Some? ==> after.tags == body.tags.value)
    && (body.tags.None? ==> after.tags == before.tags)
    && (Truthy(body.location) ==> after.location == body.location)
    && (!Truthy(body.location) ==> after.location == before.location)
    && (TruthyTime(body.moment) ==> after.memoryTime == body.moment.value)
    && (!TruthyTime(body.moment) ==> after.memoryTime == before.memoryTime)
    && (body.isPublic.Some? ==> after.isPublic == body.isPublic.value)
    && (body.isPublic.None? ==> after.isPublic == before.isPublic)
    && after.groupId == before.groupId && after.likes == before.likes
    && after.password == before.password && after.createdAt == before.createdAt
    && after.commentsCount == before.commentsCount
  }

  /** The merge meets the field promise. */
  lemma LemmaMergePostFields(p: Post, body: UpdatePostBody)
    ensures UpdatedFrom(p, MergePost(p, body), body)
  {
  }

  /** `updatePostById`: 404 for a missing post, then 403 unless `postPassword`
      equals the stored password, with no write on either; otherwise the
      merged post is saved and its projection sent back. */
  function UpdatePostById(s: Store, id: Id, body: UpdatePostBody): (r: Reply<PostDetail>)
    ensures id !in s.posts ==> r.status == NotFound && r.store == s
    ensures id in s.posts && body.postPassword != Some(s.posts[id].password) ==>
      r.status == Forbidden && r.store == s
    ensures r.status == OK <==> id in s.posts && body.postPassword == Some(s.posts[id].password)
    ensures r.status == OK ==> r.store.posts.Keys == s.posts.Keys
    ensures r.status == OK ==>
      && var before := s.posts[id];
      && var after := r.store.posts[id];
      && UpdatedFrom(before, after, body)
      && r.body == Some(DetailOf(id, after))
      && (forall other | other in s.posts && other != id :: r.store.posts[other] == s.posts[other])
      && r.store.groups == s.groups && r.store.comments == s.comments
    ensures r.store.nextId == s.nextId
    ensures Valid(s) ==> Valid(r.store)
  {
    if id !in s.posts then Refuse(s, NotFound)
    else if body.postPassword != Some(s.posts[id].password) then Refuse(s, Forbidden)
    else
      var merged := MergePost(s.posts[id], body);
      LemmaMergePostFields(s.posts[id], body);
      Reply(OK, Some(DetailOf(id, merged)), s.(posts := s.posts[id := merged]))
  }

  /** Sending the same update twice leaves the store as sending it once. */
  lemma LemmaUpdatePostIdempotent(s: Store, id: Id, body: UpdatePostBody)
    ensures var once := UpdatePostById(s, id, body).store;
      UpdatePostById(once, id, body).store == once
  {
  }

  // ---------------------------------------------------------------- delete

  /** `deletePostById`: the same 404/403 gate on `postPassword`; on success
      exactly that post is removed. The parent group (its `postCount`
      included) and the post's comments stay as they are. */
  function DeletePostById(s: Store, id: Id, postPassword: Option<string>): (r: Reply<Ack>)
    ensures id !in s.posts ==> r.status == NotFound && r.store == s
    ensures id in s.posts && postPassword != Some(s.posts[id].password) ==>
      r.status == Forbidden && r.store == s
    ensures r.status == OK <==> id in s.posts && postPassword == Some(s.posts[id].password)
    ensures r.status == OK ==>
      && r.store.posts.Keys == s.posts.Keys - {id}
      && (forall other | other in r.store.posts :: r.store.posts[other] == s.posts[other])
      && r.store.groups == s.groups && r.store.comments == s.comments
    ensures r.store.nextId == s.nextId
    ensures Valid(s) ==> Valid(r.store)
  {
    if id !in s.posts then Refuse(s, NotFound)
    else if postPassword != Some(s.posts[id].password) then Refuse(s, Forbidden)
    else Reply(OK, Some(Ack), s.(posts := s.posts - {id}))
  }

  // ---------------------------------------------------------- small gates

  /** `getPostById`: the projection of the stored post, or 404. */
  function GetPostById(s: Store, id: Id): (r: Reply<PostDetail>)
    ensures r.store == s
    ensures r.status == OK <==> id in s.posts
    ensures r.status != OK ==> r.status == NotFound && r.body.None?
    ensures r.status == OK ==>
      && r.body.Some?
      && var d := r.body.value;
      && var p := s.posts[id];
      && d.id == id && d.groupId == p.groupId
      && d.nickname == p.nickname && d.title == p.title && d.content == p.content
      && d.imageUrl == p.image && d.tags == p.tags && d.location == p.location
      && d.moment == p.memoryTime && d.isPublic == p.isPublic
      && d.likeCount == p.likes && d.commentCount.None? && d.createdAt == p.createdAt
  {
    if id !in s.posts then Refuse(s, NotFound)
    else Reply(OK, Some(DetailOf(id, s.posts[id])), s)
  }

  /** Creating a post and reading it back returns the supplied fields under
      the new id. */
  lemma LemmaCreateThenGetPost(s: Store, groupId: Id, body: CreatePostBody, now: int)
    requires groupId in s.groups && CreatePostBodyOk(body)
    ensures var c := CreatePost(s, groupId, body, now);
      var d := GetPostById(c.store, c.body.value.id);
      && d.status == OK
      && d.body.value.groupId == groupId
      && d.body.value.nickname == body.nickname.value
      && d.body.value.title == body.title.value
      && d.body.value.content == body.content.value
      && d.body.value.imageUrl == body.image
      && d.body.value.tags == body.tags.GetOr([])
      && d.body.value.location == body.location
      && d.body.value.moment == body.memoryTime.GetOr(now)
      && (d.body.value.isPublic <==> body.isPublic != Some(false))
      && d.body.value.likeCount == 0
      && d.body.value.createdAt == now
  {
  }

  /** `verifyPostPassword`: 404 for a missing post; otherwise 200 exactly when
      the stored password equals the supplied one, 401 when not. Unlike the
      group check, a public post gets no bypass. Nothing is written. */
  function VerifyPostPassword(s: Store, id: Id, password: Option<string>): (r: Reply<Ack>)
    ensures r.store == s
    ensures r.status == NotFound <==> id !in s.posts
    ensures r.status == OK <==> id in s.posts && password == Some(s.posts[id].password)
    ensures r.status == Unauthorized <==> id in s.posts && password != Some(s.posts[id].password)
  {
    if id !in s.posts then Refuse(s, NotFound)
    else if password != Some(s.posts[id].password) then Refuse(s, Unauthorized)
    else Reply(OK, Some(Ack), s)
  }

  /** `likePostById`: 404 for a missing post; otherwise one more like and
      nothing else changes. */
  function LikePostById(s: Store, id: Id): (r: Reply<Ack>)
    ensures id !in s.posts ==> r.status == NotFound && r.store == s
    ensures id in s.posts ==>
      && r.status == OK
      && r.store.posts == s.posts[id := s.posts[id].(likes := s.posts[id].likes + 1)]
      && r.store.groups == s.groups && r.store.comments == s.comments
      && r.store.nextId == s.nextId
    ensures Valid(s) ==> Valid(r.store)
  {
    if id !in s.posts then Refuse(s, NotFound)
    else
      var p := s.posts[id];
      Reply(OK, Some(Ack), s.(posts := s.posts[id := p.(likes := p.likes + 1)]))
  }

  /** `getPostPublicStatus`: the id and public flag, or 404. */
  function GetPostPublicStatus(s: Store, id: Id): (r: Reply<PublicFlag>)
    ensures r.store == s
    ensures r.status == OK <==> id in s.posts
    ensures r.status != OK ==> r.status == NotFound
    ensures r.status == OK ==> r.body == Some(PublicFlag(id, s.posts[id].isPublic))
  {
    if id !in s.posts then Refuse(s, NotFound)
    else Reply(OK, Some(PublicFlag(id, s.posts[id].isPublic)), s)
  }
  /** The password check and the update and delete gates compare against the
      same stored password, though each reads it from a differently named
      body field. */
  lemma LemmaVerifyAgreesWithGates(s: Store, id: Id, password: Option<string>, body: UpdatePostBody)
    ensures var ok := VerifyPostPassword(s, id, password).status == OK;
      && (ok <==> UpdatePostById(s, id, body.(postPassword := password)).status == OK)
      && (ok <==> DeletePostById(s, id, password).status == OK)
  {
  }

  /** A like is visible in the next read of the post. */
  lemma LemmaLikeThenGet(s: Store, id: Id)
    requires id in s.posts
    ensures var t := LikePostById(s, id).store;
      GetPostById(t, id).body.value.likeCount == s.posts[id].likes + 1
  {
  }

  /** The public-status reply agrees with the detail reply. */
  lemma LemmaPublicStatusAgreesWithDetail(s: Store, id: Id)
    requires id in s.posts
    ensures GetPostPublicStatus(s, id).body.value.isPublic == GetPostById(s, id).body.value.isPublic
  {
  }

  /** A deleted post is gone for later reads, while its comments remain. */
  lemma LemmaDeleteThenGet(s: Store, id: Id, postPassword: Option<string>)
    requires DeletePostById(s, id, postPassword).status == OK
    ensures var t := DeletePostById(s, id, postPassword).store;
      && GetPostById(t, id).status == NotFound
      && t.comments == s.comments
  {
  }
}

=== FILE: schema.dfy ===
/** The three document shapes of the store (models/groupModel.js,
    models/postModel.js, models/commentModel.js), the schema validation
    Mongoose runs on save, and the documents `new Model({...})` builds from
    the supplied fields and the schema defaults. Times are milliseconds. */
module Schema {
  import opened Wrappers

  /** A document id. Ids are allocated in increasing order, so ascending ids
      are insertion order. */
  type Id = nat

  /** Milliseconds in a day (`1000 * 60 * 60 * 24`). */
  const Day: int := 86400000

  datatype Group = Group(
    name: string,
    imageUrl: Option<string>,
    introduction: Option<string>,
    isPublic: bool,
    password: Option<string>,
    likeCount: int,
    postCount: int,
    badges: seq<string>,
    createdAt: int)

  datatype Post = Post(
    groupId: Id,
    nickname: string,
    title: string,
    image: Option<string>,
    content: string,
    tags: seq<string>,
    location: Option<string>,
    memoryTime: int,
    isPublic: bool,
    password: string,
    likes: int,
    commentsCount: int,
    createdAt: int)

  datatype Comment = Comment(
    postId: Id,
    nickname: string,
    content: string,
    password: string,
    createdAt: int)

  predicate Distinct<T(==)>(xs: seq<T>) {
    forall i, j | 0 <= i < j < |xs| :: xs[i] != xs[j]
  }

  /** Ids in ascending order, as allocation hands them out. */
  predicate Increasing(xs: seq<Id>) {
    forall i, j | 0 <= i < j < |xs| :: xs[i] < xs[j]
  }

  /** Mongoose's `required: true` on a String path fails for the empty string. */
  predicate Required(s: string) {
    s != ""
  }

  /** The schema's required paths are present. */
  predicate GroupSavable(g: Group) {
    Required(g.name)
  }

  predicate PostSavable(p: Post) {
    Required(p.nickname) && Required(p.title) && Required(p.content) && Required(p.password)
  }

  predicate CommentSavable(c: Comment) {
    Required(c.nickname) && Required(c.content) && Required(c.password)
  }

  /** A stored group: savable, counters never negative, each badge held once. */
  predicate GroupOk(g: Group) {
    GroupSavable(g) && g.likeCount >= 0 && g.postCount >= 0 && Distinct(g.badges)
  }

  predicate PostOk(p: Post) {
    PostSavable(p) && p.likes >= 0 && p.commentsCount >= 0
  }

  predicate CommentOk(c: Comment) {
    CommentSavable(c)
  }

  /** `new Group({...})`: `isPublic` defaults to true, both counters to 0,
      `badges` to the empty list and `createdAt` to the creation time. */
  function NewGroup(name: string, password: Option<string>, imageUrl: Option<string>,
                    isPublic: Option<bool>, introduction: Option<string>, now: int): (g: Group)
    ensures GroupOk(g) <==> name != ""
    ensures g.isPublic <==> isPublic != Some(false)
    ensures g.likeCount == 0 && g.postCount == 0 && g.badges == [] && g.createdAt == now
  {
    Group(name, imageUrl, introduction, isPublic.GetOr(true), password, 0, 0, [], now)
  }

  /** `new Post({...})`: an undefined `tags` becomes the empty array,
      `memory_time` and `created_at` default to the creation time,
      `is_public` to true, `likes` and `comments_count` to 0. */
  function NewPost(groupId: Id, nickname: string, title: string, image: Option<string>,
                   content: string, tags: Option<seq<string>>, location: Option<string>,
                   memoryTime: Option<int>, isPublic: Option<bool>, password: string,
                   now: int): (p: Post)
    ensures PostOk(p) <==> nickname != "" && title != "" && content != "" && password != ""
    ensures p.isPublic <==> isPublic != Some(false)
    ensures p.memoryTime == (if memoryTime.Some? then memoryTime.value else now)
    ensures p.likes == 0 && p.commentsCount == 0 && p.createdAt == now
  {
    Post(groupId, nickname, title, image, content, tags.GetOr([]), location,
         memoryTime.GetOr(now), isPublic.GetOr(true), password, 0, 0, now)
  }

  /** `new Comment({...})`: `created_at` defaults to the creation time. */
  function NewComment(postId: Id, nickname: string, content: string, password: string,
                      now: int): (c: Comment)
    ensures CommentOk(c) <==> nickname != "" && content != "" && password != ""
    ensures c.postId == postId && c.createdAt == now
  {
    Comment(postId, nickname, content, password, now)
  }
}

=== FILE: storage.dfy ===
/** The document store the controllers talk to, as a value: one id-keyed map
    per collection plus the id allocator, and the shape of an HTTP reply. */
module Storage {
  import opened Wrappers
  import opened Schema

  datatype Store = Store(
    groups: map<Id, Group>,
    posts: map<Id, Post>,
    comments: map<Id, Comment>,
    nextId: Id)

  /** Every document was allocated (id below `nextId`), satisfies its schema,
      and names a parent id that was allocated when it was created. */
  predicate Valid(s: Store) {
    && (forall id | id in s.groups :: id < s.nextId && GroupOk(s.groups[id]))
    && (forall id | id in s.posts :: id < s.nextId && PostOk(s.posts[id]) && s.posts[id].groupId < s.nextId)
    && (forall id | id in s.comments :: id < s.nextId && CommentOk(s.comments[id]) && s.comments[id].postId < s.nextId)
  }

  /** The keys of `m` below `bound`, ascending: the collection's natural
      (insertion) order. */
  function NaturalOrder<T>(m: map<Id, T>, bound: nat): (r: seq<Id>)
    ensures Increasing(r)
    ensures forall id :: id in r <==> id in m && id < bound
  {
    if bound == 0 then []
    else
      var below := NaturalOrder(m, bound - 1);
      assert forall i | 0 <= i < |below| :: below[i] in below;
      below + (if bound - 1 in m then [bound - 1] else [])
  }

  lemma LemmaIncreasingDistinct(xs: seq<Id>)
    requires Increasing(xs)
    ensures Distinct(xs)
  {
  }

  /** Replacing a stored group by one that satisfies the schema keeps the
      store valid. */
  lemma LemmaReplaceGroupValid(s: Store, id: Id, g: Group)
    requires Valid(s) && id in s.groups && GroupOk(g)
    ensures Valid(s.(groups := s.groups[id := g]))
  {
  }

  /** The HTTP statuses the controllers send: 200, 201, 400, 401, 403, 404
      and 500. */
  datatype Status = OK | Created | BadRequest | Unauthorized | Forbidden | NotFound | ServerError

  /** What a handler does: the status it sends, the JSON body's payload (None
      when the body is only a message), and the store afterwards. */
  datatype Reply<T> = Reply(status: Status, body: Option<T>, store: Store)

  /** A freshly saved document together with its allocated id. */
  datatype Saved<T> = Saved(id: Id, doc: T)

  /** A body that carries only a message. */
  datatype Ack = Ack

  /** The `{ id, isPublic }` body of the public-flag checks. */
  datatype PublicFlag = PublicFlag(id: Id, isPublic: bool)

  /** A reply that changes nothing and carries only a message. */
  function Refuse<T>(s: Store, status: Status): (r: Reply<T>)
    ensures r.status == status && r.body.None? && r.store == s
  {
    Reply(status, None, s)
  }
}

=== FILE: wrappers.dfy ===
/** An optional value: `None` stands for a JavaScript `undefined` (a field the
    request or the document does not carry). */
module Wrappers {

  datatype Option<+T> = None | Some(value: T) {

    /** The value, or `default` when there is none (a destructuring default). */
    function GetOr(default: T): (r: T)
      ensures Some? ==> r == value
      ensures None? ==> r == default
    {
      match this
      case Some(v) => v
      case None => default
    }
  }
}
